=== FILE: README.md ===
# YouTube channel dashboard — data core in Dafny

This project models the data core of a Streamlit dashboard for one YouTube
channel. The dashboard fetches a channel's videos from the YouTube Data API,
condenses them into a channel summary and a per-video table, and shows
derived views of that table.

The model covers four parts:

- **The API client's request logic** (`YouTubeApi`):
  - statistics ids are sent in chunks of at most 50;
  - the answers are merged in chunk order;
  - any `HttpError` turns the whole answer into `None`;
  - a 403 on comments means "no comments";
  - the search parameters.
- **Data processing** (`DataProcessing`, with `Durations`, `Timestamps`
  and `Text`):
  - the channel summary: totals over the statistics items, averages over
    the number of search items;
  - one table record per statistics item, with the ISO 8601 duration
    parsed and rendered as a clock (`1:02:03`);
  - the publish time parsed from `%Y-%m-%dT%H:%M:%SZ` and rendered as
    `%b %d, %Y`;
  - the table sorted newest first;
  - `format_duration` (`1h 2m 3s`).
- **The video view's query layer** (`VideoMetrics`):
  - the two derived percentage columns;
  - the minimum-views filter;
  - the six "Sort By" orders;
  - the metric-to-column map;
  - the top 10 by a metric;
  - the time series order.
- **The channel view's numbers** (`ChannelMetrics`):
  - the truncated averages;
  - the engagement rate;
  - the trend column and its order;
  - the three key-insight selections ("most popular", "most engaging",
    "optimal length").

Supporting modules:

- `Wrappers` holds `Option` and `Result`.
- `Provider` holds the shapes of the provider's answers.
- `Tables` holds pandas' `sort_values` (missing values last in both
  directions), `head(n)` after a descending sort, and boolean-mask
  filtering.
- `Ratios` holds float division with `inf` and `NaN`, `fillna`, and
  `idxmax`.

How the model represents the source's values:

- Every call into the provider is a function parameter from the request to
  a `Result` of the answer or an `HttpError`.
- Floats are exact reals. A ratio is an `Ext`: finite, `+inf` or `NaN`.
- A duration is a whole number of seconds.
- A publish time is a validated calendar timestamp. Its sort key is the
  number of seconds since 0001-01-01.

Where the code and its description differ, the model follows the code:

- The derived columns are `n / 0 = inf` for `n > 0`. `fillna(0)` only
  repairs `0 / 0`, so a video with likes but no views keeps an infinite
  like ratio; it is not 0.
- The channel averages divide the totals over the statistics items by the
  number of search items.
- The per-video table has one record per statistics item. The code reads
  each item's entry from the search lookup it builds
  (utils/data_processing.py:84), but never uses the entry it reads.

## Model

| member | source | states |
|---|---|---|
| Durations.ParseRenderDuration | utils/data_processing.py:93-95 | every duration in the `P[nD]T[nH][nM][nS]` shape parses back to the fields it was written from |
| Durations.DurationExampleZero | utils/data_processing.py:42-44 | the default `PT0S` used for a missing duration reads as 0 seconds |
| Durations.DurationExampleHms | utils/data_processing.py:93-95 | `PT1H2M3S` reads as 3723 seconds |
| Durations.DurationRefusals | utils/data_processing.py:93-95 | `""`, `P`, `PT1X` and `1H` are refused: parsing raises |
| Durations.ClockDecomposition | utils/data_processing.py:98-99 | the two `divmod` steps split the seconds into hours, minutes below 60 and seconds below 60 that add back to the total; hours are positive exactly when the total is at least an hour |
| Durations.CompactDurationRoundTrip | utils/data_processing.py:98-104 | the clock text reads back to the same number of seconds; it has three `:` fields exactly when the video is at least an hour long, otherwise two |
| Durations.ReadLongClock | utils/data_processing.py:101-102 | `H:MM:SS` with minutes and seconds below 60 reads back as hours, minutes and seconds, in three fields |
| Durations.ReadShortClock | utils/data_processing.py:103-104 | `M:SS` with seconds below 60 reads back as minutes and seconds, in two fields |
| Durations.ReadClockDisplay | utils/data_processing.py:98-104 | both clock shapes read back to their hours, minutes and seconds, in three fields when there are hours and two otherwise |
| Durations.ClockRefusesPaddedLead | utils/data_processing.py:103-104 | the leading field is written without padding, so `01:05` is not a clock text and is refused; `1:05` is |
| Durations.CompactDurationExample | utils/data_processing.py:101-102 | 3723 seconds show as `1:02:03` |
| Durations.CompactDurationShortExample | utils/data_processing.py:103-104 | 65 seconds show as `1:05` |
| Durations.FormatDurationRoundTrip | utils/data_processing.py:147-155 | for any non-negative number of seconds, the `h`/`m`/`s` text reads back to its whole seconds; it has three parts when there is an hour, two when there is a minute and one otherwise |
| Durations.FormatDurationParts | utils/data_processing.py:147-149 | on a non-negative number of seconds, the two `divmod` steps give the hours, minutes and seconds of its floor |
| Durations.ReadUnitsDisplay | utils/data_processing.py:150-155 | each of the three `h`/`m`/`s` shapes reads back to its seconds, with one part per unit shown from the largest non-zero one down |
| Durations.FormatDurationExampleZero | utils/data_processing.py:154-155 | 0 seconds show as `0s` |
| Durations.FormatDurationExampleMinutes | utils/data_processing.py:152-153 | 65 seconds show as `1m 5s` |
| Durations.FormatDurationExampleHours | utils/data_processing.py:150-151 | 3661 seconds show as `1h 1m 1s` |
| Durations.FormatDurationExampleFraction | utils/data_processing.py:147-151 | 3600.5 seconds show as `1h 0m 0s`: the fraction is dropped |
| Timestamps.ParseRenderTimestamp | utils/data_processing.py:109 | every valid timestamp, written in the fixed layout, parses back to itself |
| Timestamps.RenderParseTimestamp | utils/data_processing.py:109 | every text that parses is exactly the rendering of the timestamp it parses to |
| Timestamps.DisplayDateRoundTrip | utils/data_processing.py:110 | the `%b %d, %Y` display reads back to the timestamp's year, month and day |
| Timestamps.DisplayDateExample | utils/data_processing.py:110 | 2023-01-05 shows as `Jan 05, 2023` |
| Timestamps.BeforeIsInstantOrder | utils/data_processing.py:132-133 | field-by-field chronological order of two timestamps is the order of their instants |
| Timestamps.LexLessRender | utils/data_processing.py:131-133 | the string order of two rendered timestamps is their chronological order, both directions |
| Timestamps.TextOrderIsTimeOrder | utils/data_processing.py:131-133 | for two parseable publish texts, string order and parsed-time order agree, both directions |
| Tables.SortBy | components/video_metrics.py:41-52 | `sort_values`: a permutation of the rows, ordered by the key ascending or descending, with missing keys last either way |
| Tables.TopN | components/video_metrics.py:112 | `sort_values(descending).head(n)`: `min(n, len)` rows drawn from the input, in descending order, each ranking at least as high as every row left out |
| Tables.Filter | components/video_metrics.py:39 | a boolean mask keeps exactly the rows that satisfy it, each as often as in the input, and drops the rest |
| Tables.FilterKeepsAll | components/video_metrics.py:39 | a mask that every row satisfies leaves the table unchanged |
| Tables.FilterKeepsOrder | components/video_metrics.py:39 | a mask keeps the surviving rows in their original relative order |
| Ratios.Divide | components/channel_metrics.py:159 | float division of counts: a finite quotient when the divisor is positive; `n / 0` is `+inf` for `n > 0` and `NaN` for `0 / 0` |
| Ratios.FirstArgMax | components/channel_metrics.py:155 | `idxmax`: the first position holding the largest non-`NaN` value; nothing exactly when every value is `NaN` |
| YouTubeApi.ChunksPartition | utils/youtube_api.py:89-90 | the chunks laid end to end give back the ids in order; every chunk holds 1 to 50 ids and only the last may be short |
| YouTubeApi.ChunkCount | utils/youtube_api.py:90 | the number of requests is the number of ids divided by 50, rounded up |
| YouTubeApi.ChunksUnique | utils/youtube_api.py:90 | the slicing is the only way to split the ids into chunks of 50 in order with only the last one short: any such split equals it |
| YouTubeApi.ChunkExample | utils/youtube_api.py:90 | 120 ids go out as requests of 50, 50 and 20 |
| YouTubeApi.GetVideosStatistics | utils/youtube_api.py:85-103 | no ids: no request and an empty listing; otherwise one request per chunk in order, with the items merged in chunk order; the first `HttpError` stops the requests and the result is `None`, with no partial listing |
| YouTubeApi.MergedLength | utils/youtube_api.py:93-100 | when each request answers one item per id, the merged listing has one item per input id |
| YouTubeApi.GetVideoComments | utils/youtube_api.py:116-129 | a 403 answer gives an empty comment listing; any other `HttpError` gives `None`; an answer is passed on unchanged |
| YouTubeApi.SearchParams | utils/youtube_api.py:57-66 | the search sends `part=snippet`, the channel id, the page size, `order=date` and `type=video`; it sends publishedAfter exactly when a non-empty value is given, and then that value |
| YouTubeApi.GetChannelVideos | utils/youtube_api.py:56-72 | the search answer for those parameters, or `None` exactly when the search raises `HttpError` |
| YouTubeApi.GetChannelInfo | utils/youtube_api.py:33-41 | the channel answer, or `None` exactly when the request raises `HttpError` |
| DataProcessing.ProcessChannelStatistics | utils/data_processing.py:17-55 | with no search item or no statistics item, the summary is all zero; otherwise the totals are sums over the statistics items, with a missing counter adding 0, and each average times the number of search items is its total; a malformed duration raises, and the error is that of the first malformed duration |
| DataProcessing.TotalOfAppend | utils/data_processing.py:36-39 | the total over two runs of items is the sum of their totals |
| DataProcessing.MissingCountsZero | utils/data_processing.py:37 | an item without a view count adds nothing to the total views |
| DataProcessing.Published | utils/data_processing.py:107-112 | an absent or empty publish text gives no time and `Unknown`; a present one must parse in the fixed layout, and then it is the rendering of the parsed time and its display reads back to that date |
| DataProcessing.BuildRecord | utils/data_processing.py:80-126 | a record exists exactly when the duration and the publish text both parse, and a bad duration is reported first; counters default to 0, title to `Unknown`, description and thumbnail to the empty text; the duration text is the compact clock of the seconds (`M:SS` under an hour, `H:MM:SS` from an hour up, so two or three fields) and reads back to them; the record has a publish time exactly when the item has a non-empty publish text, and then its display date is that time's `%b %d, %Y`; otherwise the date is `Unknown` |
| DataProcessing.MapResult | utils/data_processing.py:79-126 | building the records item by item: every item's record, in order, or the error of the first item that fails |
| DataProcessing.ProcessVideoStatistics | utils/data_processing.py:57-135 | with no search item or no statistics item the table is empty; otherwise it is a permutation of one record per statistics item, sorted newest first with undated rows last, or the first item's error |
| DataProcessing.NewestFirstIsTextOrder | utils/data_processing.py:131-133 | in the sorted table, the publish texts of any two dated rows are in descending string order |
| VideoMetrics.PerView | components/video_metrics.py:21-22 | the percentage of views: finite and exact when views are positive; `0 / 0` becomes 0; `n / 0` for `n > 0` stays `+inf` |
| VideoMetrics.AddDerived | components/video_metrics.py:21-22 | the derived columns change neither the rows nor their order, are never `NaN`, and are the like and comment percentages of views wherever views are positive; on a row with no views, each column is 0 exactly when its count is 0 and `+inf` exactly when the count is positive |
| VideoMetrics.OnlyTimeMissing | components/video_metrics.py:41-52 | among the sortable columns, only the publish time can be missing |
| VideoMetrics.MetricMapCovers | components/video_metrics.py:93-109 | the map holds exactly the comparison labels, every time-series label is among them, distinct labels name distinct columns, and none names the publish time |
| VideoMetrics.MinViewsFilter | components/video_metrics.py:29-39 | the filter keeps exactly the rows with at least the minimum views; a minimum of 0 keeps the table as it is |
| VideoMetrics.ApplySort | components/video_metrics.py:41-52 | each of the six choices gives a permutation ordered by its column and direction; any other choice leaves the rows as they are |
| VideoMetrics.ViewsOrders | components/video_metrics.py:45-48 | "Views (High to Low)" puts no row before one with more views; "Views (Low to High)" does the reverse |
| VideoMetrics.ShownRows | components/video_metrics.py:29-52 | the rows shown are exactly the rows with at least the minimum views, with their derived columns, ordered by the chosen sort when it is one of the six |
| VideoMetrics.DisplayVideoMetrics | components/video_metrics.py:16-155 | an empty table shows nothing; an unknown metric name fails, checking the comparison name first; otherwise (a non-empty table and two known names) the view is always drawn: the shown rows are the filtered rows in the chosen order, the top rows are the 10 best by the metric in descending order, each ranking at least as high as every shown row left out, and the series is the shown rows oldest first |
| ChannelMetrics.Truncate | components/channel_metrics.py:33-37 | `int(x)` truncates toward zero, for both signs |
| ChannelMetrics.TruncatedMean | components/channel_metrics.py:33-37 | an average of whole counts is non-negative, and `int()` of it is the integer quotient of the total by the count |
| ChannelMetrics.DisplayedAverages | components/channel_metrics.py:33-37 | for a summary built by `process_channel_statistics`, the three whole numbers shown for average views, likes and comments are each total divided by the video count, rounded down; 0 when there are no videos |
| ChannelMetrics.EngagementRate | components/channel_metrics.py:43-45 | the rate exists exactly when the average views are positive, and then the rate times the average views is 100 times the average likes plus comments |
| ChannelMetrics.EngagementFromTotals | components/channel_metrics.py:43-45 | on a summary of counts, the rate is the percentage of total likes and comments over total views |
| ChannelMetrics.TrendColumnAgreesWithMetricMap | components/channel_metrics.py:57-78 | on the labels the trend box offers, its column is the one the video view's map gives; every label other than Views, Likes and Comments (the ratio labels and unknown text included) falls to the duration, and only those do |
| ChannelMetrics.TrendData | components/channel_metrics.py:52-54 | the trend rows are a permutation of the table, oldest first with undated rows last |
| ChannelMetrics.SelectMax | components/channel_metrics.py:155-166 | `loc[idxmax()]`: the row at the column's first maximum; an all-`NaN` column raises with the column's name |
| ChannelMetrics.KeyInsights | components/channel_metrics.py:154-167 | the most popular video has the most views, and each selection is at its column's first maximum; the result fails exactly when a ratio column is all `NaN` |
| ChannelMetrics.ZeroViewsWinsEngagement | components/channel_metrics.py:159-160 | as written, when some video has likes but no views, the "most engaging" video is one with no views |
| ChannelMetrics.ZeroLengthWinsOptimal | components/channel_metrics.py:165-166 | as written, when some video has views but zero length, the "optimal length" video has zero length |
| ChannelMetrics.GuardedRatio | components/channel_metrics.py:159-165 | a ratio exists exactly when the denominator is positive, and it is then the exact quotient |
| ChannelMetrics.QuotientOrder | components/channel_metrics.py:159-166 | for positive denominators, comparing two ratios is comparing the cross products, both directions |
| ChannelMetrics.SelectGuarded | components/channel_metrics.py:159-166 | the chosen row has a positive denominator and no row with one has a larger ratio; the selection fails exactly when no row has a positive denominator |
| ChannelMetrics.KeyInsightsGuarded | components/channel_metrics.py:154-167 | the insights with the ratios guarded: the most engaging video has views and the best likes per view among videos with views; the optimal-length video has a length and the most views per second among videos with a length |

## Left out

- Rendering is not modelled: Streamlit widgets, Plotly charts, the theme, the
  `st.error` messages, and `app.py`'s page flow (the date windows from
  `datetime.now()` and the choice of which view to show). Widget values
  (minimum views, sort and metric names) become parameters.
- `st.cache_data` caching is not modelled. It changes when a request is
  made, not what a call returns.
- The correlation matrix, the trend line fit and the histograms of the
  channel view are not modelled. They are statistics drawn from the table
  and passed on to a chart.
- Only the duration shape the provider sends is parsed: days, hours,
  minutes and whole seconds. isodate's years, months, weeks, fractional
  seconds and sign are refused here, where isodate would accept them. So
  is isodate's alternative form `PYYYY-MM-DDThh:mm:ss`
  (e.g. `P0000-00-00T01:02:03`), which isodate reads as a duration.
- `strptime` is more lenient than the model's parser in three ways:
  - it accepts one-digit fields, such as `2023-1-5T…`;
  - `%d` accepts a space before a single digit, such as `2023-01- 5T…`;
  - the pattern matches without regard to case, so the literal `T` and
    `Z` may be lower-case: `2023-01-05t12:00:00z` parses.

  `Timestamps.ParseTimestamp` accepts only the exact layout the provider
  sends, upper-case and zero-padded. Texts that only the lenient reading
  accepts raise in the model where the source goes on.
- `pd.to_datetime` (utils/data_processing.py:132) raises
  `OutOfBoundsDatetime` for times before 1677-09-21 or after 2262-04-11,
  the range of a 64-bit nanosecond count. `Timestamps.Valid` accepts years
  1 to 9999, as `strptime` does, so the model builds and sorts a table
  that the source would fail to sort. YouTube publish times fall within
  both ranges.
- `Provider.Count`: counters are decimal strings on the wire. The model
  reads them as numbers that are already parsed. A counter that `int()`
  cannot read would raise; that path is not modelled.
- Float rounding is not modelled. Averages and ratios are exact reals, and
  durations are whole seconds because the parsed shape has no fractions.
- When a statistics request fails, the client returns `None`. Callers then
  read `.get` on it. What happens after that belongs to `app.py` and is
  not modelled.
- Exceptions other than `HttpError` propagate unchanged and are not
  modelled. This includes network errors and isodate's `ISO8601Error`, which
  is modelled only as the failure of a parse.
- The comma-joined `id` parameter of a statistics request is modelled as
  the chunk of ids itself.
- The search lookup built from the search items
  (utils/data_processing.py:72-76) is read for each item (line 84), but
  the entry read never reaches the table, so it is not modelled.
- `%Y` renders the year without padding on glibc in the Python versions
  the model follows, so years below 1000 show with fewer digits. Whether
  `strftime("%Y")` pads to four digits depends on the Python version:
  recent CPython pads to four digits on Linux. The two readings differ
  only for years below 1000, which the provider never sends.
- `sort_values` is not stable, and ties may come out in any order. The
  model picks one arrangement. Its contracts promise only what every
  arrangement has: a permutation, in order.
- Pandas index labels and `reset_index` are not modelled. Rows are
  identified by position.
- Display formatting is not modelled: thousands separators, `.2f`, and the
  chart text templates.
- `Tables.TopN`: among rows that tie at the cut-off, pandas may keep
  different ones. The contract states only what holds for every choice:
  each kept row ranks at least as high as every row left out.
- `DataProcessing.ProcessChannelStatistics`: the average duration is exact.
  Python sums floats, which can differ in the last place.

## Findings

| source | as written | input that shows it | evidently intended | confidence | as-written member | corrected member |
|---|---|---|---|---|---|---|
| components/channel_metrics.py:165-166 | views per second is `views / duration_seconds` with no guard, so a video of length 0 that has views scores `inf` and always wins | a live stream (duration `P0D`, so 0 seconds) with 10 views, next to a 60-second video with 1000 views: the "optimal length" shown is `0:00` | choose among videos with a positive length: the most views per second of length | medium, not executed | ChannelMetrics.ZeroLengthWinsOptimal | ChannelMetrics.KeyInsightsGuarded |
| components/channel_metrics.py:159-160 | the engagement ratio is `likes / views` with no guard, so a video with likes but no recorded views scores `inf` and always wins | a video with 0 views and 1 like, next to one with 100 views and 50 likes: the "most engaging" video is the one with no views, and its like ratio is shown as `inf%` | choose among videos with views: the largest likes per view | low, not executed | ChannelMetrics.ZeroViewsWinsEngagement | ChannelMetrics.KeyInsightsGuarded |

=== FILE: channel_metrics.dfy ===
/** The numbers the channel view derives from the summary and the table:
    the truncated averages, the guarded engagement rate, the trend column
    and trend order, and the three "key insight" selections. */
module ChannelMetrics {
  import opened Wrappers
  import opened Tables
  import opened Ratios
  import opened DataProcessing
  import opened VideoMetrics

  /** `int(x)`: truncation toward zero. */
  function Truncate(x: real): (n: int)
    ensures x >= 0.0 ==> n >= 0 && n as real <= x < n as real + 1.0
    ensures x < 0.0 ==> n <= 0 && n as real - 1.0 < x <= n as real
  {
    if x >= 0.0 then x.Floor else -((-x).Floor)
  }

  /** Multiplying by a positive factor keeps order, so it can be cancelled. */
  lemma CancelFactor(x: real, y: real, c: real)
    requires c > 0.0
    ensures x * c <= y * c ==> x <= y
    ensures x * c < y * c ==> x < y
  {
    if y < x {
      assert (x - y) * c > 0.0;
    }
    if y <= x {
      assert (x - y) * c >= 0.0;
    }
  }

  /** A mean of a count is a non-negative real whose truncation is the
      integer quotient: `int(total / n) == total // n`. */
  lemma TruncatedMean(mean: real, total: nat, n: nat)
    requires IsMean(mean, total, n)
    ensures mean >= 0.0
    ensures Truncate(mean) == total / n
  {
    var q, rem := total / n, total % n;
    var nr, qr := n as real, q as real;
    assert total as real == qr * nr + rem as real && rem < n by {
      assert total == q * n + rem;
      assert (q * n) as real == qr * nr;
    }
    // The fractional part d of the mean is the remainder over the count.
    var d := mean - qr;
    assert d * nr == rem as real by {
      assert d * nr == mean * nr - qr * nr;
    }
    assert 0.0 <= d by {
      CancelFactor(0.0, d, nr);
    }
    assert d < 1.0 by {
      CancelFactor(d, 1.0, nr);
    }
  }

  /** The average cards of a summary the channel statistics produced show
      whole numbers: for each of views, likes and comments, the truncated
      average is the total divided by the video count, rounded down; the
      all-zero summary shows zeros. */
  lemma DisplayedAverages(s: ChannelSummary)
    requires s == ZeroSummary || (
      && IsMean(s.avgViews, s.totalViews, s.videoCount)
      && IsMean(s.avgLikes, s.totalLikes, s.videoCount)
      && IsMean(s.avgComments, s.totalComments, s.videoCount))
    ensures Truncate(s.avgViews) == if s.videoCount == 0 then 0 else s.totalViews / s.videoCount
    ensures Truncate(s.avgLikes) == if s.videoCount == 0 then 0 else s.totalLikes / s.videoCount
    ensures Truncate(s.avgComments) == if s.videoCount == 0 then 0 else s.totalComments / s.videoCount
  {
    if s != ZeroSummary {
      TruncatedMean(s.avgViews, s.totalViews, s.videoCount);
      TruncatedMean(s.avgLikes, s.totalLikes, s.videoCount);
      TruncatedMean(s.avgComments, s.totalComments, s.videoCount);
    }
  }

  /** The engagement rate, shown only when the average views are positive:
      likes and comments together as a percentage of views. */
  function EngagementRate(s: ChannelSummary): (rate: Option<real>)
    ensures rate.Some? <==> s.avgViews > 0.0
    ensures rate.Some? ==> rate.value * s.avgViews == (s.avgLikes + s.avgComments) * 100.0
  {
    if s.avgViews > 0.0 then Some((s.avgLikes + s.avgComments) / s.avgViews * 100.0) else None
  }

  /** On a summary built from counts, the rate is the percentage of total
      engagements over total views: the shared video count cancels. */
  lemma EngagementFromTotals(s: ChannelSummary)
    requires s.videoCount > 0 && s.totalViews > 0
    requires IsMean(s.avgViews, s.totalViews, s.videoCount)
    requires IsMean(s.avgLikes, s.totalLikes, s.videoCount)
    requires IsMean(s.avgComments, s.totalComments, s.videoCount)
    ensures EngagementRate(s).Some?
    ensures EngagementRate(s).value * s.totalViews as real == (s.totalLikes + s.totalComments) as real * 100.0
  {
    var n := s.videoCount as real;
    assert s.avgViews > 0.0;
    var rate := EngagementRate(s).value;
    calc {
      rate * s.totalViews as real;
      rate * (s.avgViews * n);
      (rate * s.avgViews) * n;
      ((s.avgLikes + s.avgComments) * 100.0) * n;
      (s.avgLikes * n + s.avgComments * n) * 100.0;
      (s.totalLikes + s.totalComments) as real * 100.0;
    }
  }

  /** The trend-metric choice: Views, Likes and Comments pick their
      columns, and any other choice picks the duration. */
  function TrendColumn(name: string): (c: Column)
    ensures c in {Views, Likes, Comments, DurationSeconds}
  {
    if name == "Views" then Views
    else if name == "Likes" then Likes
    else if name == "Comments" then Comments
    else DurationSeconds
  }

  /** The labels of the trend box. */
  const TrendLabels: seq<string> := ["Views", "Likes", "Comments", "Duration"]

  /** On the labels the box offers, the trend choice agrees with the video
      view's `metric_map`; every label other than Views, Likes and Comments,
      including the map's ratio labels, falls to the duration. */
  lemma TrendColumnAgreesWithMetricMap(name: string)
    ensures name in TrendLabels ==> MetricColumn(name) == Some(TrendColumn(name))
    ensures TrendColumn(name) == DurationSeconds <==> name !in TrendLabels[..3]
  {
  }

  /** `set_index('published_at').sort_index()`: oldest first, undated rows last. */
  function TrendData(records: seq<VideoRecord>): (r: seq<VideoRecord>)
    ensures multiset(r) == multiset(records)
    ensures SortedBy(r, PublishedKey, false)
  {
    SortBy(records, PublishedKey, false)
  }

  /** The `views` column, as cells. */
  function ViewsColumn(records: seq<VideoRecord>): (xs: seq<Ext>)
    ensures |xs| == |records|
    ensures forall i | 0 <= i < |xs| :: xs[i] == Finite(records[i].views as real)
  {
    seq(|records|, i requires 0 <= i < |records| => Finite(records[i].views as real))
  }

  /** The `engagement_ratio` column, `likes / views`, unguarded. */
  function EngagementColumn(records: seq<VideoRecord>): (xs: seq<Ext>)
    ensures |xs| == |records|
    ensures forall i | 0 <= i < |xs| :: xs[i] == Divide(records[i].likes, records[i].views)
  {
    seq(|records|, i requires 0 <= i < |records| => Divide(records[i].likes, records[i].views))
  }

  /** The `views_per_second` column, `views / duration_seconds`, unguarded. */
  function ViewsPerSecondColumn(records: seq<VideoRecord>): (xs: seq<Ext>)
    ensures |xs| == |records|
    ensures forall i | 0 <= i < |xs| :: xs[i] == Divide(records[i].views, records[i].durationSeconds)
  {
    seq(|records|, i requires 0 <= i < |records| => Divide(records[i].views, records[i].durationSeconds))
  }

  /** The three selections. */
  datatype Insights = Insights(mostPopular: VideoRecord, mostEngaging: VideoRecord, optimalLength: VideoRecord)

  /** `video_df.loc[column.idxmax()]`; a column of nothing but `NaN` has no
      row to show and raises, reported with the column's name. */
  method SelectMax(records: seq<VideoRecord>, column: seq<Ext>, name: string) returns (r: Result<VideoRecord, string>)
    requires |column| == |records|
    ensures r.Success? <==> exists i | 0 <= i < |column| :: !column[i].NaN?
    ensures r.Success? ==> exists i | 0 <= i < |records| :: IsFirstArgMax(column, i) && r.value == records[i]
    ensures r.Failure? ==> r.error == name
  {
    var best := FirstArgMax(column);
    if best.None? {
      return Failure(name);
    }
    return Success(records[best.value]);
  }

  /** The key insights of a non-empty table: the first video with the most
      views, the first with the largest likes-per-view ratio and the first
      with the most views per second of length. The two ratios are unguarded:
      a video with no views but some likes has an infinite ratio and wins,
      and `0 / 0` is skipped; when a whole ratio column is `0 / 0` the
      selection raises. */
  method KeyInsights(records: seq<VideoRecord>) returns (r: Result<Insights, string>)
    requires |records| > 0
    ensures r.Success? <==>
      && (exists i | 0 <= i < |records| :: !EngagementColumn(records)[i].NaN?)
      && (exists i | 0 <= i < |records| :: !ViewsPerSecondColumn(records)[i].NaN?)
    ensures r.Success? ==>
      && (forall j | 0 <= j < |records| :: records[j].views <= r.value.mostPopular.views)
      && (exists i | 0 <= i < |records| :: IsFirstArgMax(ViewsColumn(records), i) && r.value.mostPopular == records[i])
      && (exists i | 0 <= i < |records| :: IsFirstArgMax(EngagementColumn(records), i) && r.value.mostEngaging == records[i])
      && (exists i | 0 <= i < |records| :: IsFirstArgMax(ViewsPerSecondColumn(records), i) && r.value.optimalLength == records[i])
  {
    var views := ViewsColumn(records);
    assert !views[0].NaN?;
    var popular := SelectMax(records, views, "views");
    var popularRecord := popular.value;
    assert forall j | 0 <= j < |records| :: records[j].views <= popularRecord.views by {
      var i :| 0 <= i < |records| && IsFirstArgMax(views, i) && popularRecord == records[i];
      forall j | 0 <= j < |records| ensures records[j].views <= popularRecord.views {
        assert ExtAtMost(views[j], views[i]);
      }
    }
    var engaging := SelectMax(records, EngagementColumn(records), "engagement_ratio");
    if engaging.Failure? {
      return Failure(engaging.error);
    }
    var optimal := SelectMax(records, ViewsPerSecondColumn(records), "views_per_second");
    if optimal.Failure? {
      return Failure(optimal.error);
    }
    return Success(Insights(popularRecord, engaging.value, optimal.value));
  }

  /** As written, a video with no views but some likes has an infinite
      engagement ratio, so the most engaging video is one with no views. */
  lemma ZeroViewsWinsEngagement(records: seq<VideoRecord>, k: nat, i: nat)
    requires k < |records| && records[k].views == 0 && records[k].likes > 0
    requires IsFirstArgMax(EngagementColumn(records), i)
    ensures records[i].views == 0
  {
    assert ExtAtMost(EngagementColumn(records)[k], EngagementColumn(records)[i]);
    assert EngagementColumn(records)[i].PosInf?;
  }

  /** As written, a video of length zero with some views (a live stream
      reports its length as `P0D`) has infinite views per second, so the
      "optimal length" shown is zero seconds. */
  lemma ZeroLengthWinsOptimal(records: seq<VideoRecord>, k: nat, i: nat)
    requires k < |records| && records[k].durationSeconds == 0 && records[k].views > 0
    requires IsFirstArgMax(ViewsPerSecondColumn(records), i)
    ensures records[i].durationSeconds == 0
  {
    assert ExtAtMost(ViewsPerSecondColumn(records)[k], ViewsPerSecondColumn(records)[i]);
    assert ViewsPerSecondColumn(records)[i].PosInf?;
  }

  // ---------------------------------------------------------------------------
  // Guarded ratios

  /** `num / den` where the denominator is positive; a row with a zero
      denominator has no ratio and is skipped by the selection. */
  function GuardedRatio(num: nat, den: nat): (q: Ext)
    ensures q.NaN? <==> den == 0
    ensures den > 0 ==> q.Finite? && q.r * den as real == num as real
  {
    if den > 0 then Divide(num, den) else NaN
  }

  /** For positive denominators, comparing quotients is comparing cross products. */
  lemma QuotientOrder(a: nat, b: nat, c: nat, d: nat, p: real, q: real)
    requires b > 0 && d > 0 && p * b as real == a as real && q * d as real == c as real
    ensures p <= q <==> a * d <= c * b
  {
    assert (a * d) as real == p * (b * d) as real;
    assert (c * b) as real == q * (b * d) as real;
  }

  /** The selected row of a guarded ratio has a positive denominator and the
      largest ratio among the rows that have one. */
  lemma GuardedSelection(records: seq<VideoRecord>, nums: seq<nat>, dens: seq<nat>, column: seq<Ext>, i: nat)
    requires |nums| == |dens| == |column| == |records|
    requires forall j | 0 <= j < |column| :: column[j] == GuardedRatio(nums[j], dens[j])
    requires IsFirstArgMax(column, i)
    ensures dens[i] > 0
    ensures forall j | 0 <= j < |records| && dens[j] > 0 :: nums[j] * dens[i] <= nums[i] * dens[j]
  {
    forall j | 0 <= j < |records| && dens[j] > 0
      ensures nums[j] * dens[i] <= nums[i] * dens[j]
    {
      assert ExtAtMost(column[j], column[i]);
      QuotientOrder(nums[j], dens[j], nums[i], dens[i], column[j].r, column[i].r);
    }
  }

  /** The row with the largest guarded ratio `nums[i] / dens[i]`: it has a
      positive denominator and no row with one has a larger ratio. When no
      row has a positive denominator there is nothing to select. */
  method SelectGuarded(records: seq<VideoRecord>, nums: seq<nat>, dens: seq<nat>, name: string)
    returns (r: Result<VideoRecord, string>)
    requires |nums| == |dens| == |records|
    ensures r.Success? <==> exists i | 0 <= i < |dens| :: dens[i] > 0
    ensures r.Failure? ==> r.error == name
    ensures r.Success? ==> exists i | 0 <= i < |records| ::
      && r.value == records[i] && dens[i] > 0
      && forall j | 0 <= j < |records| && dens[j] > 0 :: nums[j] * dens[i] <= nums[i] * dens[j]
  {
    var column := seq(|records|, j requires 0 <= j < |records| => GuardedRatio(nums[j], dens[j]));
    r := SelectMax(records, column, name);
    assert forall j | 0 <= j < |dens| :: column[j].NaN? <==> dens[j] == 0;
    if r.Success? {
      var i :| 0 <= i < |records| && IsFirstArgMax(column, i) && r.value == records[i];
      GuardedSelection(records, nums, dens, column, i);
    }
  }

  /** The likes of each row. */
  function LikesOf(records: seq<VideoRecord>): (xs: seq<nat>)
    ensures |xs| == |records| && forall i | 0 <= i < |xs| :: xs[i] == records[i].likes
  {
    seq(|records|, i requires 0 <= i < |records| => records[i].likes)
  }

  /** The views of each row. */
  function ViewsOf(records: seq<VideoRecord>): (xs: seq<nat>)
    ensures |xs| == |records| && forall i | 0 <= i < |xs| :: xs[i] == records[i].views
  {
    seq(|records|, i requires 0 <= i < |records| => records[i].views)
  }

  /** The length in seconds of each row. */
  function LengthsOf(records: seq<VideoRecord>): (xs: seq<nat>)
    ensures |xs| == |records| && forall i | 0 <= i < |xs| :: xs[i] == records[i].durationSeconds
  {
    seq(|records|, i requires 0 <= i < |records| => records[i].durationSeconds)
  }

  /** The key insights with both ratios guarded: the most engaging video has
      views and the largest likes per view among videos with views, and the
      optimal-length video has a length and the most views per second among
      videos with a length. A table where no video has views, or none has a
      length, has no such selection. */
  method KeyInsightsGuarded(records: seq<VideoRecord>) returns (r: Result<Insights, string>)
    requires |records| > 0
    ensures r.Success? <==>
      && (exists i | 0 <= i < |records| :: records[i].views > 0)
      && (exists i | 0 <= i < |records| :: records[i].durationSeconds > 0)
    ensures r.Success? ==>
      && (forall j | 0 <= j < |records| :: records[j].views <= r.value.mostPopular.views)
      && r.value.mostEngaging in records && r.value.mostEngaging.views > 0
      && (forall j | 0 <= j < |records| && records[j].views > 0 ::
            records[j].likes * r.value.mostEngaging.views <= r.value.mostEngaging.likes * records[j].views)
      && r.value.optimalLength in records && r.value.optimalLength.durationSeconds > 0
      && (forall j | 0 <= j < |records| && records[j].durationSeconds > 0 ::
            records[j].views * r.value.optimalLength.durationSeconds <= r.value.optimalLength.views * records[j].durationSeconds)
  {
    var views := ViewsColumn(records);
    assert !views[0].NaN?;
    var popular := SelectMax(records, views, "views");
    var popularRecord := popular.value;
    assert forall j | 0 <= j < |records| :: records[j].views <= popularRecord.views by {
      var i :| 0 <= i < |records| && IsFirstArgMax(views, i) && popularRecord == records[i];
      forall j | 0 <= j < |records| ensures records[j].views <= popularRecord.views {
        assert ExtAtMost(views[j], views[i]);
      }
    }
    var counts := ViewsOf(records);
    var engaging := SelectGuarded(records, LikesOf(records), counts, "engagement_ratio");
    if engaging.Failure? {
      return Failure(engaging.error);
    }
    var optimal := SelectGuarded(records, counts, LengthsOf(records), "views_per_second");
    if optimal.Failure? {
      return Failure(optimal.error);
    }
    return Success(Insights(popularRecord, engaging.value, optimal.value));
  }
}

=== FILE: data_processing.dfy ===
/** The data shaping between the provider's responses and the views: the
    channel summary (totals and per-video averages) and the video table (one
    record per statistics item, newest first). */
module DataProcessing {
  import opened Wrappers
  import opened Text
  import opened Provider
  import opened Durations
  import opened Timestamps
  import opened Tables

  // ---------------------------------------------------------------------------
  // Channel summary

  /** The summary dictionary of a channel. */
  datatype ChannelSummary = ChannelSummary(
    videoCount: nat,
    avgViews: real,
    avgLikes: real,
    avgComments: real,
    avgDurationSeconds: real,
    totalViews: nat,
    totalLikes: nat,
    totalComments: nat)

  /** The summary of a channel with nothing to summarise. */
  const ZeroSummary := ChannelSummary(0, 0.0, 0.0, 0.0, 0.0, 0, 0, 0)

  /** The length of a statistics item in seconds; a missing duration reads as `PT0S`. */
  function ItemDuration(item: StatsItem): Result<nat, string> {
    DurationSeconds(item.duration.GetOr("PT0S"))
  }

  function ItemViews(item: StatsItem): nat { Count(item.viewCount) }
  function ItemLikes(item: StatsItem): nat { Count(item.likeCount) }
  function ItemComments(item: StatsItem): nat { Count(item.commentCount) }

  /** The sum of a counter over the items. */
  function TotalOf(items: seq<StatsItem>, counter: StatsItem -> nat): nat {
    if |items| == 0 then 0
    else TotalOf(items[..|items| - 1], counter) + counter(items[|items| - 1])
  }

  /** Every item's duration can be read. */
  predicate DurationsReadable(items: seq<StatsItem>) {
    forall i | 0 <= i < |items| :: ItemDuration(items[i]).Success?
  }

  lemma ReadablePrefix(items: seq<StatsItem>, k: nat)
    requires DurationsReadable(items) && k <= |items|
    ensures DurationsReadable(items[..k])
  {
    forall i | 0 <= i < k ensures ItemDuration(items[..k][i]).Success? {
      assert items[..k][i] == items[i];
    }
  }

  lemma ReadableExtend(items: seq<StatsItem>, k: nat)
    requires k < |items| && DurationsReadable(items[..k]) && ItemDuration(items[k]).Success?
    ensures DurationsReadable(items[..k + 1])
  {
    var p := items[..k + 1];
    forall i | 0 <= i < |p| ensures ItemDuration(p[i]).Success? {
      if i < k { assert p[i] == items[..k][i]; }
    }
  }

  /** The sum of the items' lengths in seconds. */
  function TotalDuration(items: seq<StatsItem>): nat
    requires DurationsReadable(items)
  {
    if |items| == 0 then 0
    else
      ReadablePrefix(items, |items| - 1);
      TotalDuration(items[..|items| - 1]) + ItemDuration(items[|items| - 1]).value
  }

  /** One more item in the running totals. */
  lemma TotalsStep(items: seq<StatsItem>, k: nat)
    requires k < |items| && DurationsReadable(items[..k + 1])
    ensures DurationsReadable(items[..k])
    ensures TotalOf(items[..k + 1], ItemViews) == TotalOf(items[..k], ItemViews) + ItemViews(items[k])
    ensures TotalOf(items[..k + 1], ItemLikes) == TotalOf(items[..k], ItemLikes) + ItemLikes(items[k])
    ensures TotalOf(items[..k + 1], ItemComments) == TotalOf(items[..k], ItemComments) + ItemComments(items[k])
    ensures TotalDuration(items[..k + 1]) == TotalDuration(items[..k]) + ItemDuration(items[k]).value
  {
    assert items[..k + 1][..k] == items[..k];
    assert items[..k + 1][k] == items[k];
    ReadablePrefix(items[..k + 1], k);
  }

  /** A total over a concatenation is the sum of the totals. */
  lemma {:induction false} TotalOfAppend(a: seq<StatsItem>, b: seq<StatsItem>, counter: StatsItem -> nat)
    ensures TotalOf(a + b, counter) == TotalOf(a, counter) + TotalOf(b, counter)
    decreases |b|
  {
    if |b| == 0 {
      assert a + b == a;
    } else {
      assert (a + b)[..|a + b| - 1] == a + b[..|b| - 1];
      TotalOfAppend(a, b[..|b| - 1], counter);
    }
  }

  /** An item whose counter is missing adds nothing to the total. */
  lemma MissingCountsZero(items: seq<StatsItem>, item: StatsItem)
    requires item.viewCount.None?
    ensures TotalOf(items + [item], ItemViews) == TotalOf(items, ItemViews)
  {
    assert (items + [item])[..|items|] == items;
  }

  /** `process_channel_statistics`. With no search item, or no statistics
      item, the summary is all zero. Otherwise the totals are sums over the
      statistics items (a missing counter adds 0) and each average is a
      total divided by the number of SEARCH items, whatever the number of
      statistics items. A duration that cannot be read raises; the first
      such text is the error. */
  method ProcessChannelStatistics(search: Envelope<SearchItem>, stats: Envelope<StatsItem>) returns (r: Result<ChannelSummary, string>)
    ensures |search.Items()| == 0 || |stats.Items()| == 0 ==> r == Success(ZeroSummary)
    ensures |search.Items()| > 0 && |stats.Items()| > 0 ==> (r.Success? <==> DurationsReadable(stats.Items()))
    ensures r.Success? && |search.Items()| > 0 && |stats.Items()| > 0 ==>
      var items, s, n := stats.Items(), r.value, |search.Items()|;
      && s.videoCount == n
      && s.totalViews == TotalOf(items, ItemViews)
      && s.totalLikes == TotalOf(items, ItemLikes)
      && s.totalComments == TotalOf(items, ItemComments)
      && IsMean(s.avgViews, s.totalViews, n)
      && IsMean(s.avgLikes, s.totalLikes, n)
      && IsMean(s.avgComments, s.totalComments, n)
      && IsMean(s.avgDurationSeconds, TotalDuration(items), n)
    ensures r.Failure? ==> exists i | 0 <= i < |stats.Items()| ::
      && ItemDuration(stats.Items()[i]).Failure?
      && r.error == ItemDuration(stats.Items()[i]).error
      && DurationsReadable(stats.Items()[..i])
  {
    var count := |search.Items()|;
    var items := stats.Items();
    if count == 0 || |items| == 0 {
      return Success(ZeroSummary);
    }
    var views, likes, comments, seconds := 0, 0, 0, 0;
    var i := 0;
    while i < |items|
      invariant 0 <= i <= |items|
      invariant DurationsReadable(items[..i])
      invariant views == TotalOf(items[..i], ItemViews)
      invariant likes == TotalOf(items[..i], ItemLikes)
      invariant comments == TotalOf(items[..i], ItemComments)
      invariant seconds == TotalDuration(items[..i])
    {
      var duration := ItemDuration(items[i]);
      if duration.Failure? {
        return Failure(duration.error);
      }
      ReadableExtend(items, i);
      TotalsStep(items, i);
      views := views + ItemViews(items[i]);
      likes := likes + ItemLikes(items[i]);
      comments := comments + ItemComments(items[i]);
      seconds := seconds + duration.value;
      i := i + 1;
    }
    assert items[..i] == items;
    var avgViews, avgLikes, avgComments, avgSeconds := Average(views, count), Average(likes, count), Average(comments, count), Average(seconds, count);
    return Success(ChannelSummary(count, avgViews, avgLikes, avgComments, avgSeconds, views, likes, comments));
  }

  /** `mean` is `total` shared out over `count` videos. */
  predicate IsMean(mean: real, total: nat, count: nat) {
    count > 0 && mean * count as real == total as real
  }

  /** `total / count` as a float; exact here. */
  function Average(total: nat, count: nat): (a: real)
    requires count > 0
    ensures IsMean(a, total, count)
  {
    total as real / count as real
  }

  // ---------------------------------------------------------------------------
  // Video table

  /** One row of the video table. `publishedAt` is the parsed publish time,
      `None` where pandas holds `NaT`; `duration` is the compact clock text. */
  datatype VideoRecord = VideoRecord(
    id: Option<string>,
    title: string,
    description: string,
    publishedAt: Option<ValidTimestamp>,
    publishedDate: string,
    views: nat,
    likes: nat,
    comments: nat,
    durationSeconds: nat,
    duration: string,
    thumbnail: string)

  /** The display of an absent publish time. */
  const UnknownDate := "Unknown"

  /** A publish time is read only when the key holds a non-empty text. */
  predicate HasText(t: Option<string>) {
    t.Some? && t.value != ""
  }

  /** The publish time and its display: an absent or empty text gives no
      time and `Unknown`; a present text must parse in the fixed format. */
  function Published(text: Option<string>): (r: Result<(Option<ValidTimestamp>, string), string>)
    ensures !HasText(text) ==> r == Success((None, UnknownDate))
    ensures HasText(text) ==> (r.Success? <==> ParseTimestamp(text.value).Success?)
    ensures HasText(text) && r.Failure? ==> r.error == text.value
    ensures HasText(text) && r.Success? ==>
      && r.value.0.Some?
      && RenderTimestamp(r.value.0.value) == text.value
      && r.value.1 == DisplayDate(r.value.0.value)
      && ReadDisplayDate(r.value.1) == Some((r.value.0.value.year, r.value.0.value.month, r.value.0.value.day))
  {
    if HasText(text) then
      var t :- ParseTimestamp(text.value);
      RenderParseTimestamp(text.value);
      DisplayDateRoundTrip(t);
      Success((Some(t), DisplayDate(t)))
    else Success((None, UnknownDate))
  }

  /** The record built from one statistics item: counters default to 0,
      title to `Unknown`, description and thumbnail to the empty text; the
      duration is parsed (raising on a malformed one) and shown as a clock;
      the publish time is parsed when present. A malformed duration is
      reported before a malformed publish time. */
  function BuildRecord(item: StatsItem): (r: Result<VideoRecord, string>)
    ensures r.Success? <==> ItemDuration(item).Success? && Published(item.publishedAt).Success?
    ensures r.Failure? ==> r.error == if ItemDuration(item).Failure? then ItemDuration(item).error else Published(item.publishedAt).error
    ensures r.Success? ==>
      var v := r.value;
      && v.id == item.id
      && v.views == Count(item.viewCount) && v.likes == Count(item.likeCount) && v.comments == Count(item.commentCount)
      && v.durationSeconds == ItemDuration(item).value
      && v.duration == CompactDuration(v.durationSeconds)
      && ReadClock(v.duration) == Some(v.durationSeconds)
      && |Split(v.duration, ':')| == (if v.durationSeconds >= 3600 then 3 else 2)
      && (item.title.Some? ==> v.title == item.title.value) && (item.title.None? ==> v.title == "Unknown")
      && (item.thumbnail.Some? ==> v.thumbnail == item.thumbnail.value) && (item.thumbnail.None? ==> v.thumbnail == "")
      && (item.description.Some? ==> v.description == item.description.value) && (item.description.None? ==> v.description == "")
      && (v.publishedAt.Some? <==> HasText(item.publishedAt))
      && (v.publishedAt.None? ==> v.publishedDate == UnknownDate)
      && (v.publishedAt.Some? ==> RenderTimestamp(v.publishedAt.value) == item.publishedAt.value)
      && (v.publishedAt.Some? ==> v.publishedDate == DisplayDate(v.publishedAt.value))
  {
    var seconds :- ItemDuration(item);
    var published :- Published(item.publishedAt);
    var clock := CompactDuration(seconds);
    assert ReadClock(clock) == Some(seconds) && |Split(clock, ':')| == (if seconds >= 3600 then 3 else 2) by {
      CompactDurationRoundTrip(seconds);
    }
    Success(VideoRecord(
      item.id,
      item.title.GetOr("Unknown"),
      item.description.GetOr(""),
      published.0,
      published.1,
      Count(item.viewCount),
      Count(item.likeCount),
      Count(item.commentCount),
      seconds,
      clock,
      item.thumbnail.GetOr("")))
  }

  /** `[f(x) for x in xs]` where `f` may raise: the results in order, or the
      error of the first element that fails. */
  function MapResult<A, B, E>(xs: seq<A>, f: A -> Result<B, E>): (r: Result<seq<B>, E>)
    ensures r.Success? <==> forall i | 0 <= i < |xs| :: f(xs[i]).Success?
    ensures r.Success? ==> |r.value| == |xs| && forall i | 0 <= i < |xs| :: r.value[i] == f(xs[i]).value
    ensures r.Failure? ==> exists i | 0 <= i < |xs| ::
      && f(xs[i]).Failure?
      && r.error == f(xs[i]).error
      && forall j | 0 <= j < i :: f(xs[j]).Success?
  {
    if |xs| == 0 then Success([])
    else
      var first :- f(xs[0]);
      var rest := MapResult(xs[1..], f);
      assert forall i | 0 <= i < |xs| - 1 :: xs[1..][i] == xs[i + 1];
      if rest.Failure? then
        assert exists i | 0 <= i < |xs| :: f(xs[i]).Failure? && rest.error == f(xs[i]).error
          && forall j | 0 <= j < i :: f(xs[j]).Success? by {
          var i :| 0 <= i < |xs| - 1 && f(xs[1..][i]).Failure? && rest.error == f(xs[1..][i]).error
            && forall j | 0 <= j < i :: f(xs[1..][j]).Success?;
          forall j | 0 <= j < i + 1 ensures f(xs[j]).Success? {
            if j > 0 { assert xs[j] == xs[1..][j - 1]; }
          }
          assert f(xs[i + 1]).Failure?;
        }
        Failure(rest.error)
      else
        var r := [first] + rest.value;
        assert forall i | 0 < i < |xs| :: r[i] == rest.value[i - 1];
        Success(r)
  }

  /** The records of all items, in item order; the first item that cannot be
      built raises, and its error is the result. */
  function BuildRecords(items: seq<StatsItem>): Result<seq<VideoRecord>, string> {
    MapResult(items, BuildRecord)
  }

  /** The sort key of the `published_at` column: the instant of the publish
      time; `NaT` is missing. */
  function PublishedKey(v: VideoRecord): (k: Key)
    ensures k.Missing? <==> v.publishedAt.None?
  {
    match v.publishedAt
    case Some(t) => Value(Instant(t) as real)
    case None => Missing
  }

  /** `process_video_statistics`. With no search item or no statistics item
      the table is empty. Otherwise it holds exactly one record per
      statistics item (the join drops nothing and adds nothing: an item
      missing from the search results is still kept), sorted newest first
      with rows of no publish time last. */
  function ProcessVideoStatistics(search: Envelope<SearchItem>, stats: Envelope<StatsItem>): (r: Result<seq<VideoRecord>, string>)
    ensures |search.Items()| == 0 || |stats.Items()| == 0 ==> r == Success([])
    ensures |search.Items()| > 0 && |stats.Items()| > 0 ==>
      && (r.Success? <==> BuildRecords(stats.Items()).Success?)
      && (r.Failure? ==> r.error == BuildRecords(stats.Items()).error)
    ensures r.Success? && |search.Items()| > 0 && |stats.Items()| > 0 ==>
      && multiset(r.value) == multiset(BuildRecords(stats.Items()).value)
      && |r.value| == |stats.Items()|
      && SortedBy(r.value, PublishedKey, true)
  {
    if |search.Items()| == 0 || |stats.Items()| == 0 then Success([])
    else
      var records :- BuildRecords(stats.Items());
      var sorted := SortBy(records, PublishedKey, true);
      PermutationLength(sorted, records);
      Success(sorted)
  }

  /** In the table sorted newest first, the publish texts of any two dated
      rows are in descending string order: sorting the raw provider strings
      and sorting the parsed times agree. */
  lemma NewestFirstIsTextOrder(rows: seq<VideoRecord>, i: nat, j: nat)
    requires SortedBy(rows, PublishedKey, true)
    requires i < j < |rows| && rows[i].publishedAt.Some? && rows[j].publishedAt.Some?
    ensures !LexLess(RenderTimestamp(rows[i].publishedAt.value), RenderTimestamp(rows[j].publishedAt.value))
  {
    var a, b := rows[i].publishedAt.value, rows[j].publishedAt.value;
    assert Precedes(PublishedKey(rows[i]), PublishedKey(rows[j]), true);
    LexLessRender(a, b);
    BeforeIsInstantOrder(a, b);
  }
}

=== FILE: durations.dfy ===
/** Video lengths: the provider's ISO 8601 duration strings (the
    `P[nD][T[nH][nM][nS]]` part of the "format with designators" of
    section 4.4.3.2 of ISO 8601:2004, natural-number values only), the compact
    clock display `H:MM:SS` / `M:SS` of the video table, and the
    `Xh Ym Zs` display of `format_duration`. */
module Durations {
  import opened Wrappers
  import opened Text

  /** The designated components of a duration; `None` where the designator is absent. */
  datatype DurationFields = DurationFields(days: Option<nat>, hours: Option<nat>, minutes: Option<nat>, seconds: Option<nat>)

  /** `timedelta.total_seconds()` of a parsed duration; an absent component counts 0. */
  function TotalSeconds(f: DurationFields): nat {
    86400 * f.days.GetOr(0) + 3600 * f.hours.GetOr(0) + 60 * f.minutes.GetOr(0) + f.seconds.GetOr(0)
  }

  /** Reads one `n<designator>` component at the front of `s`; when `s` does
      not start with one, nothing is consumed. */
  function TakeComponent(s: string, designator: char): (Option<nat>, string)
  {
    var k := DigitRun(s);
    if 0 < k < |s| && s[k] == designator then (Some(Value(s[..k])), s[k + 1..]) else (None, s)
  }

  /** Reads the hour, minute and second components of a time part, in that
      order, returning what is left unread. */
  function ParseTimePart(t: string): (Option<nat>, Option<nat>, Option<nat>, string)
  {
    var (hours, r1) := TakeComponent(t, 'H');
    var (minutes, r2) := TakeComponent(r1, 'M');
    var (seconds, r3) := TakeComponent(r2, 'S');
    (hours, minutes, seconds, r3)
  }

  /** The duration parser: `P`, an optional day component, then an optional
      time part `T` with optional hour, minute and second components, and
      nothing after. A bare `P` is refused; everything else outside this
      grammar is refused as well. The error carries the offending text. */
  function ParseDuration(s: string): Result<DurationFields, string>
  {
    if |s| <= 1 || s[0] != 'P' then Failure(s)
    else
      var (days, rest) := TakeComponent(s[1..], 'D');
      if rest == "" then Success(DurationFields(days, None, None, None))
      else if rest[0] != 'T' then Failure(s)
      else
        var (hours, minutes, seconds, unread) := ParseTimePart(rest[1..]);
        if unread == "" then Success(DurationFields(days, hours, minutes, seconds)) else Failure(s)
  }

  /** `isodate.parse_duration(text).total_seconds()`. */
  function DurationSeconds(text: string): Result<nat, string>
  {
    var fields :- ParseDuration(text);
    Success(TotalSeconds(fields))
  }

  /** The text of one component, empty when it is absent. */
  function Component(c: Option<nat>, designator: char): string {
    match c
    case None => ""
    case Some(n) => NatToString(n) + [designator]
  }

  /** The time part `T…` of a rendered duration; omitted only for a duration
      given in days alone. */
  function TimeText(f: DurationFields): string {
    if f.days.Some? && f.hours.None? && f.minutes.None? && f.seconds.None? then ""
    else "T" + Component(f.hours, 'H') + Component(f.minutes, 'M') + Component(f.seconds, 'S')
  }

  /** Writes a duration back in the grammar `ParseDuration` reads. */
  function RenderDuration(f: DurationFields): string {
    "P" + Component(f.days, 'D') + TimeText(f)
  }

  lemma TakeComponentHit(n: nat, designator: char, rest: string)
    requires !IsDigit(designator)
    ensures TakeComponent(NatToString(n) + [designator] + rest, designator) == (Some(n), rest)
  {
    var num := NatToString(n);
    var s := num + [designator] + rest;
    assert s == num + ([designator] + rest);
    DigitRunOfNumeral(num, [designator] + rest);
    assert s[..|num|] == num;
    assert s[|num| + 1..] == rest;
  }

  /** A component with another designator is left for a later reader. */
  lemma TakeComponentMiss(c: Option<nat>, other: char, rest: string, designator: char)
    requires !IsDigit(other) && other != designator
    requires TakeComponent(rest, designator) == (None, rest)
    ensures TakeComponent(Component(c, other) + rest, designator) == (None, Component(c, other) + rest)
  {
    if c.Some? {
      var num := NatToString(c.value);
      var s := num + [other] + rest;
      assert s == num + ([other] + rest);
      DigitRunOfNumeral(num, [other] + rest);
      assert s[|num|] == other;
    } else {
      assert Component(c, other) + rest == rest;
    }
  }

  /** An optional component is read back exactly. */
  lemma TakeComponentOptional(c: Option<nat>, designator: char, rest: string)
    requires !IsDigit(designator)
    requires TakeComponent(rest, designator) == (None, rest)
    ensures TakeComponent(Component(c, designator) + rest, designator) == (c, rest)
  {
    if c.Some? {
      TakeComponentHit(c.value, designator, rest);
    } else {
      assert Component(c, designator) + rest == rest;
    }
  }

  lemma TakeComponentNonDigit(s: string, designator: char)
    requires s == [] || !IsDigit(s[0])
    ensures TakeComponent(s, designator) == (None, s)
  {
  }

  /** The time part of a rendered duration is read back exactly. */
  lemma ParseTimePartRender(f: DurationFields)
    ensures ParseTimePart(Component(f.hours, 'H') + Component(f.minutes, 'M') + Component(f.seconds, 'S'))
         == (f.hours, f.minutes, f.seconds, [])
  {
    var hc, mc, sc := Component(f.hours, 'H'), Component(f.minutes, 'M'), Component(f.seconds, 'S');
    assert hc + mc + sc == hc + (mc + sc);
    TakeComponentNonDigit([], 'S');
    TakeComponentNonDigit([], 'M');
    TakeComponentNonDigit([], 'H');
    assert sc + [] == sc;
    TakeComponentMiss(f.seconds, 'S', [], 'M');
    TakeComponentMiss(f.seconds, 'S', [], 'H');
    TakeComponentMiss(f.minutes, 'M', sc, 'H');
    TakeComponentOptional(f.hours, 'H', mc + sc);
    TakeComponentOptional(f.minutes, 'M', sc);
    TakeComponentOptional(f.seconds, 'S', []);
  }

  lemma DaysPartRender(f: DurationFields)
    ensures RenderDuration(f)[1..] == Component(f.days, 'D') + TimeText(f)
    ensures TakeComponent(RenderDuration(f)[1..], 'D') == (f.days, TimeText(f))
  {
    var tail := TimeText(f);
    assert RenderDuration(f) == "P" + (Component(f.days, 'D') + tail);
    TakeComponentNonDigit(tail, 'D');
    TakeComponentOptional(f.days, 'D', tail);
  }

  lemma TimePartRender(f: DurationFields)
    requires TimeText(f) != ""
    ensures TimeText(f)[0] == 'T'
    ensures ParseTimePart(TimeText(f)[1..]) == (f.hours, f.minutes, f.seconds, [])
  {
    assert TimeText(f)[1..] == Component(f.hours, 'H') + Component(f.minutes, 'M') + Component(f.seconds, 'S');
    ParseTimePartRender(f);
  }

  /** Every duration, rendered, parses back to itself. */
  lemma {:induction false} ParseRenderDuration(f: DurationFields)
    ensures ParseDuration(RenderDuration(f)) == Success(f)
  {
    DaysPartRender(f);
    if TimeText(f) != "" {
      TimePartRender(f);
    }
  }

  /** Worked examples: an absent duration defaults to `PT0S`,
      which is zero seconds, and `PT1H2M3S` is 3723 seconds. */
  lemma DurationExampleZero()
    ensures DurationSeconds("PT0S") == Success(0)
  {
    var zero := DurationFields(None, None, None, Some(0));
    assert RenderDuration(zero) == "PT0S" by {
      assert Component(Some(0), 'S') == "0S";
    }
    ParseRenderDuration(zero);
  }

  lemma DurationExampleHms()
    ensures DurationSeconds("PT1H2M3S") == Success(3723)
  {
    var f := DurationFields(None, Some(1), Some(2), Some(3));
    assert RenderDuration(f) == "PT1H2M3S" by {
      assert Component(Some(1), 'H') == "1H";
      assert Component(Some(2), 'M') == "2M";
      assert Component(Some(3), 'S') == "3S";
    }
    ParseRenderDuration(f);
  }

  /** Malformed or unsupported texts are refused rather than read as zero. */
  lemma DurationRefusals()
    ensures DurationSeconds("").Failure?
    ensures DurationSeconds("P").Failure?
    ensures DurationSeconds("PT1X").Failure?
    ensures DurationSeconds("1H").Failure?
  {
    assert TakeComponent("1X", 'H') == (None, "1X");
  }

  /** Decomposition of a number of seconds into hours, minutes below 60 and
      seconds below 60, as the two `divmod(…, 60)` steps compute it. */
  function Hours(secs: nat): nat { secs / 60 / 60 }
  function MinutesPart(secs: nat): nat { secs / 60 % 60 }
  function SecondsPart(secs: nat): nat { secs % 60 }

  lemma ClockDecomposition(secs: nat)
    ensures secs == 3600 * Hours(secs) + 60 * MinutesPart(secs) + SecondsPart(secs)
    ensures MinutesPart(secs) < 60 && SecondsPart(secs) < 60
    ensures Hours(secs) > 0 <==> secs >= 3600
    ensures Hours(secs) == 0 ==> (MinutesPart(secs) > 0 <==> secs >= 60)
  {
  }

  /** The video table's `duration` column: `H:MM:SS` with two-digit minutes
      and seconds when there is at least an hour, `M:SS` otherwise. */
  function CompactDuration(secs: nat): string {
    ClockDisplay(Hours(secs), MinutesPart(secs), SecondsPart(secs))
  }

  /** The clock text of hours, minutes below 60 and seconds below 60. */
  function ClockDisplay(hours: nat, minutes: nat, seconds: nat): string
    requires minutes < 60 && seconds < 60
  {
    assert Pow10(2) == 100;
    if hours > 0 then NatToString(hours) + ":" + Pad(minutes, 2) + ":" + Pad(seconds, 2)
    else NatToString(minutes) + ":" + Pad(seconds, 2)
  }

  /** A two-digit field below 60, as a clock shows minutes and seconds. */
  predicate IsSexagesimal(p: string) {
    |p| == 2 && AllDigits(p) && Value(p) < 60
  }

  /** `M:SS`: minutes as `str()` writes them (no leading zero), seconds as
      two digits below 60. */
  function ReadMinSec(m: string, s: string): Option<nat> {
    if IsCanonical(m) && IsSexagesimal(s) then Some(60 * Value(m) + Value(s)) else None
  }

  /** `H:MM:SS`: hours as `str()` writes them, minutes and seconds as two
      digits below 60. */
  function ReadHourMinSec(h: string, m: string, s: string): Option<nat> {
    if IsCanonical(h) && IsSexagesimal(m) && IsSexagesimal(s) then
      Some(3600 * Value(h) + 60 * Value(m) + Value(s))
    else None
  }

  /** Reads the fields of a clock display, `M:SS` or `H:MM:SS`, into seconds. */
  function ReadFields(parts: seq<string>): Option<nat> {
    if |parts| == 2 then ReadMinSec(parts[0], parts[1])
    else if |parts| == 3 then ReadHourMinSec(parts[0], parts[1], parts[2])
    else None
  }

  /** Reads a clock display back into seconds. */
  function ReadClock(t: string): Option<nat> {
    ReadFields(Split(t, ':'))
  }

  lemma DigitsExclude(s: string, c: char)
    requires AllDigits(s) && !IsDigit(c)
    ensures c !in s
  {
  }

  /** The compact display loses nothing: reading it back gives the seconds,
      and it has three fields exactly when the duration reaches an hour. */
  lemma {:induction false} CompactDurationRoundTrip(secs: nat)
    ensures ReadClock(CompactDuration(secs)) == Some(secs)
    ensures |Split(CompactDuration(secs), ':')| == if secs >= 3600 then 3 else 2
  {
    ClockDecomposition(secs);
    ReadClockDisplay(Hours(secs), MinutesPart(secs), SecondsPart(secs));
  }

  /** Both clock shapes read back to their seconds, in three fields when
      there are hours and two otherwise. */
  lemma ReadClockDisplay(h: nat, m: nat, s: nat)
    requires m < 60 && s < 60
    ensures ReadClock(ClockDisplay(h, m, s)) == Some(3600 * h + 60 * m + s)
    ensures |Split(ClockDisplay(h, m, s), ':')| == if h > 0 then 3 else 2
  {
    var shown := ClockDisplay(h, m, s);
    if h > 0 {
      assert ReadClock(shown) == Some(3600 * h + 60 * m + s) && |Split(shown, ':')| == 3 by {
        ReadLongClock(h, m, s);
        assert shown == NatToString(h) + ":" + Pad(m, 2) + ":" + Pad(s, 2);
      }
    } else {
      assert ReadClock(shown) == Some(60 * m + s) && |Split(shown, ':')| == 2 by {
        ReadShortClock(m, s);
        assert shown == NatToString(m) + ":" + Pad(s, 2);
      }
    }
  }

  /** Three clock fields read as hours, minutes, seconds. */
  lemma ReadThreeFields(a: string, b: string, c: string)
    requires IsCanonical(a) && IsSexagesimal(b) && IsSexagesimal(c)
    ensures ReadFields([a, b, c]) == Some(3600 * Value(a) + 60 * Value(b) + Value(c))
  {
    assert ReadFields([a, b, c]) == ReadHourMinSec(a, b, c);
  }

  /** Two clock fields read as minutes, seconds. */
  lemma ReadTwoFields(a: string, b: string)
    requires IsCanonical(a) && IsSexagesimal(b)
    ensures ReadFields([a, b]) == Some(60 * Value(a) + Value(b))
  {
    assert ReadFields([a, b]) == ReadMinSec(a, b);
  }

  /** `H:MM:SS` reads back to its seconds, in three fields. */
  lemma ReadLongClock(h: nat, m: nat, s: nat)
    requires m < 60 && s < 60
    ensures Pow10(2) == 100
    ensures ReadClock(NatToString(h) + ":" + Pad(m, 2) + ":" + Pad(s, 2)) == Some(3600 * h + 60 * m + s)
    ensures |Split(NatToString(h) + ":" + Pad(m, 2) + ":" + Pad(s, 2), ':')| == 3
  {
    assert Pow10(2) == 100;
    var ph, pm, ps := NatToString(h), Pad(m, 2), Pad(s, 2);
    DigitsExclude(ph, ':');
    DigitsExclude(pm, ':');
    DigitsExclude(ps, ':');
    SplitThree(ph, pm, ps, ':');
    ReadThreeFields(ph, pm, ps);
  }

  /** `M:SS` reads back to its seconds, in two fields. */
  lemma ReadShortClock(m: nat, s: nat)
    requires s < 60
    ensures Pow10(2) == 100
    ensures ReadClock(NatToString(m) + ":" + Pad(s, 2)) == Some(60 * m + s)
    ensures |Split(NatToString(m) + ":" + Pad(s, 2), ':')| == 2
  {
    assert Pow10(2) == 100;
    var pm, ps := NatToString(m), Pad(s, 2);
    DigitsExclude(pm, ':');
    DigitsExclude(ps, ':');
    SplitTwo(pm, ps, ':');
    ReadTwoFields(pm, ps);
  }

  /** A worked example: 3723 seconds display as `1:02:03`. */
  lemma CompactDurationExample()
    ensures CompactDuration(3723) == "1:02:03"
  {
    assert Hours(3723) == 1 && MinutesPart(3723) == 2 && SecondsPart(3723) == 3;
    PadTwo(2);
    PadTwo(3);
    assert NatToString(1) == "1";
    assert CompactDuration(3723) == NatToString(1) + ":" + Pad(2, 2) + ":" + Pad(3, 2);
  }

  /** A leading field with a leading zero is not the display of any
      duration: `01:05` is refused, where `1:05` reads as 65 seconds. */
  lemma ClockRefusesPaddedLead()
    ensures ReadClock("01:05") == None
  {
    var a, b: string := "01", "05";
    assert Split("01:05", ':') == [a, b] by {
      assert "01:05" == a + [':'] + b;
      SplitTwo(a, b, ':');
    }
    assert !IsCanonical(a) by {
      assert Value(a) == 1 by { assert a[..1] == "0"; }
      assert NatToString(1) == "1";
    }
  }

  /** Under an hour the display is `M:SS`. */
  lemma CompactDurationShortExample()
    ensures CompactDuration(65) == "1:05"
  {
    assert Hours(65) == 0 && MinutesPart(65) == 1 && SecondsPart(65) == 5;
    PadTwo(5);
    assert NatToString(1) == "1";
    assert CompactDuration(65) == NatToString(1) + ":" + Pad(5, 2);
  }

  /** `format_duration(x)`: `{h}h {m}m {s}s` when there is at least an hour,
      `{m}m {s}s` when there is at least a minute, `{s}s` otherwise. The two
      `divmod(…, 60)` steps floor, and the final `int(…)` of the fractional
      seconds drops the fraction, so the display is that of the floor of `x`. */
  function FormatDuration(x: real): string {
    var total := x.Floor;
    var minutes, seconds := total / 60, total % 60;
    var hours, minutes' := minutes / 60, minutes % 60;
    if hours > 0 then Quantity(hours, 'h') + " " + Quantity(minutes', 'm') + " " + Quantity(seconds, 's')
    else if minutes' > 0 then Quantity(minutes', 'm') + " " + Quantity(seconds, 's')
    else Quantity(seconds, 's')
  }

  /** One token of the display, `{n}` followed by its unit letter. */
  function Quantity(n: nat, unit: char): string {
    NatToString(n) + [unit]
  }

  /** Reads one token `<digits><unit>`, the digits as `str()` writes them. */
  function Amount(token: string, unit: char): Option<nat> {
    if |token| >= 2 && token[|token| - 1] == unit && IsCanonical(token[..|token| - 1]) then
      Some(Value(token[..|token| - 1]))
    else None
  }

  /** Reads the space-separated tokens of a display: `Xh Ym Zs`, `Ym Zs` or `Zs`. */
  function ReadTokens(parts: seq<string>): Option<nat> {
    if |parts| == 1 then
      Amount(parts[0], 's')
    else if |parts| == 2 && Amount(parts[0], 'm').Some? && Amount(parts[1], 's').Some? then
      Some(60 * Amount(parts[0], 'm').value + Amount(parts[1], 's').value)
    else if |parts| == 3 && Amount(parts[0], 'h').Some? && Amount(parts[1], 'm').Some? && Amount(parts[2], 's').Some? then
      Some(3600 * Amount(parts[0], 'h').value + 60 * Amount(parts[1], 'm').value + Amount(parts[2], 's').value)
    else None
  }

  /** Reads a `format_duration` display back into seconds. */
  function ReadUnits(t: string): Option<nat> {
    ReadTokens(Split(t, ' '))
  }

  lemma AmountOf(n: nat, unit: char)
    requires !IsDigit(unit)
    ensures Amount(Quantity(n, unit), unit) == Some(n)
    ensures ' ' != unit ==> ' ' !in Quantity(n, unit)
  {
    var t := Quantity(n, unit);
    assert t[..|t| - 1] == NatToString(n);
  }

  /** The three display shapes, read back. */
  lemma ReadUnitsHms(h: nat, m: nat, s: nat)
    ensures ReadUnits(Quantity(h, 'h') + " " + Quantity(m, 'm') + " " + Quantity(s, 's')) == Some(3600 * h + 60 * m + s)
    ensures |Split(Quantity(h, 'h') + " " + Quantity(m, 'm') + " " + Quantity(s, 's'), ' ')| == 3
  {
    AmountOf(h, 'h');
    AmountOf(m, 'm');
    AmountOf(s, 's');
    SplitThree(Quantity(h, 'h'), Quantity(m, 'm'), Quantity(s, 's'), ' ');
  }

  lemma ReadUnitsMs(m: nat, s: nat)
    ensures ReadUnits(Quantity(m, 'm') + " " + Quantity(s, 's')) == Some(60 * m + s)
    ensures |Split(Quantity(m, 'm') + " " + Quantity(s, 's'), ' ')| == 2
  {
    AmountOf(m, 'm');
    AmountOf(s, 's');
    SplitTwo(Quantity(m, 'm'), Quantity(s, 's'), ' ');
  }

  lemma ReadUnitsS(s: nat)
    ensures ReadUnits(Quantity(s, 's')) == Some(s)
    ensures |Split(Quantity(s, 's'), ' ')| == 1
  {
    AmountOf(s, 's');
    SplitNoSeparator(Quantity(s, 's'), ' ');
  }

  /** `format_duration` loses only the fraction of a second: reading the
      display back gives the floor of a non-negative duration, and the
      display has as many parts as the duration has units from its largest
      non-zero one down. */
  lemma {:induction false} FormatDurationRoundTrip(x: real)
    requires x >= 0.0
    ensures ReadUnits(FormatDuration(x)) == Some(x.Floor)
    ensures |Split(FormatDuration(x), ' ')| == if x.Floor >= 3600 then 3 else if x.Floor >= 60 then 2 else 1
  {
    var total: nat := x.Floor;
    var h, m, s := Hours(total), MinutesPart(total), SecondsPart(total);
    var shown := UnitsDisplay(h, m, s);
    assert FormatDuration(x) == shown by {
      FormatDurationParts(x);
    }
    assert ReadUnits(shown) == Some(total) by {
      ReadUnitsDisplay(h, m, s);
      ClockDecomposition(total);
    }
    assert |Split(shown, ' ')| == if total >= 3600 then 3 else if total >= 60 then 2 else 1 by {
      ReadUnitsDisplay(h, m, s);
      ClockDecomposition(total);
    }
  }

  /** The display of a whole number of hours, minutes and seconds, from the
      largest non-zero unit down. */
  function UnitsDisplay(h: nat, m: nat, s: nat): string {
    if h > 0 then Quantity(h, 'h') + " " + Quantity(m, 'm') + " " + Quantity(s, 's')
    else if m > 0 then Quantity(m, 'm') + " " + Quantity(s, 's')
    else Quantity(s, 's')
  }

  /** On a non-negative duration, the two `divmod` steps are the clock
      decomposition of its floor. */
  lemma FormatDurationParts(x: real)
    requires x >= 0.0
    ensures x.Floor >= 0
    ensures FormatDuration(x) == UnitsDisplay(Hours(x.Floor), MinutesPart(x.Floor), SecondsPart(x.Floor))
  {
  }

  /** Every display shape reads back to its seconds, with one part per unit shown. */
  lemma ReadUnitsDisplay(h: nat, m: nat, s: nat)
    ensures ReadUnits(UnitsDisplay(h, m, s)) == Some(3600 * h + 60 * m + s)
    ensures |Split(UnitsDisplay(h, m, s), ' ')| == if h > 0 then 3 else if m > 0 then 2 else 1
  {
    var shown := UnitsDisplay(h, m, s);
    if h > 0 {
      assert ReadUnits(shown) == Some(3600 * h + 60 * m + s) && |Split(shown, ' ')| == 3 by {
        assert shown == Quantity(h, 'h') + " " + Quantity(m, 'm') + " " + Quantity(s, 's');
        ReadUnitsHms(h, m, s);
      }
    } else if m > 0 {
      assert ReadUnits(shown) == Some(60 * m + s) && |Split(shown, ' ')| == 2 by {
        assert shown == Quantity(m, 'm') + " " + Quantity(s, 's');
        ReadUnitsMs(m, s);
      }
    } else {
      assert ReadUnits(shown) == Some(s) && |Split(shown, ' ')| == 1 by {
        assert shown == Quantity(s, 's');
        ReadUnitsS(s);
      }
    }
  }


  /** Worked examples: `0s`, `1m 5s`, `1h 1m 1s`; a fraction of
      a second is dropped. */
  lemma FormatDurationExampleZero()
    ensures FormatDuration(0.0) == "0s"
  {
    assert Quantity(0, 's') == "0s";
  }

  lemma FormatDurationExampleMinutes()
    ensures FormatDuration(65.0) == "1m 5s"
  {
    assert 65.0.Floor == 65 && 65 / 60 == 1 && 65 % 60 == 5;
    assert Quantity(1, 'm') == "1m" && Quantity(5, 's') == "5s";
  }

  lemma FormatDurationExampleHours()
    ensures FormatDuration(3661.0) == "1h 1m 1s"
  {
    assert 3661.0.Floor == 3661 && 3661 / 60 == 61 && 3661 % 60 == 1 && 61 / 60 == 1 && 61 % 60 == 1;
    assert Quantity(1, 'h') == "1h" && Quantity(1, 'm') == "1m" && Quantity(1, 's') == "1s";
  }

  lemma FormatDurationExampleFraction()
    ensures FormatDuration(3600.5) == "1h 0m 0s"
  {
    assert 3600.5.Floor == 3600 && 3600 / 60 == 60 && 3600 % 60 == 0 && 60 / 60 == 1 && 60 % 60 == 0;
    assert Quantity(1, 'h') == "1h" && Quantity(0, 'm') == "0m" && Quantity(0, 's') == "0s";
  }
}

=== FILE: provider.dfy ===
/** The shapes of the video provider's responses that the dashboard reads.
    A nested dictionary read through a chain of `.get(key, {})` calls is
    flattened here into one optional field per leaf the code reads: a
    missing parent and a missing leaf read the same. */
module Provider {
  import opened Wrappers

  /** A listing response `{"items": [...], ...}`; the `items` key may be missing. */
  datatype Envelope<T> = Envelope(items: Option<seq<T>>) {

    /** `response.get("items", [])` */
    function Items(): seq<T> {
      items.GetOr([])
    }
  }

  /** One search result; only `id.videoId` is read. */
  datatype SearchItem = SearchItem(videoId: Option<string>)

  /** One entry of a statistics response: `id`, `snippet.title`,
      `snippet.description`, `snippet.publishedAt`,
      `snippet.thumbnails.medium.url`, the three counters of `statistics`
      (decimal strings on the wire, read here as numbers) and
      `contentDetails.duration`. */
  datatype StatsItem = StatsItem(
    id: Option<string>,
    title: Option<string>,
    description: Option<string>,
    publishedAt: Option<string>,
    thumbnail: Option<string>,
    viewCount: Option<nat>,
    likeCount: Option<nat>,
    commentCount: Option<nat>,
    duration: Option<string>)

  /** One comment thread; the dashboard passes these through unread. */
  datatype CommentThread = CommentThread(author: string, text: string)

  /** Channel information; passed through unread. */
  datatype ChannelInfo = ChannelInfo(title: string, subscribers: Option<nat>)

  /** The provider's refusal of a request, with its HTTP status. */
  datatype HttpError = HttpError(status: nat)

  /** `int(d.get(key, 0))`: a missing counter counts as zero. */
  function Count(c: Option<nat>): nat {
    c.GetOr(0)
  }
}

=== FILE: ratios.dfy ===
/** Division of count columns as pandas performs it on float64 cells, the
    `fillna` that patches the result, and `idxmax`, which picks the row of
    the largest value. Counts are never negative, so negative infinity does
    not arise. */
module Ratios {
  import opened Wrappers
  import opened Tables

  /** A float64 cell computed from counts: a finite value, `inf` or `NaN`. */
  datatype Ext = Finite(r: real) | PosInf | NaN

  /** `a / b` on counts: `n / 0` is `inf` for `n > 0` and `0 / 0` is `NaN`;
      pandas raises on neither. */
  function Divide(a: nat, b: nat): (q: Ext)
    ensures b > 0 ==> q.Finite? && q.r * b as real == a as real && q.r >= 0.0
    ensures b == 0 ==> (q.PosInf? <==> a > 0) && (q.NaN? <==> a == 0)
  {
    if b > 0 then Finite(a as real / b as real)
    else if a > 0 then PosInf
    else NaN
  }

  /** Multiplication of a non-negative cell by a positive constant. */
  function Scale(q: Ext, c: real): (s: Ext)
    requires c > 0.0
    ensures s.Finite? <==> q.Finite?
    ensures s.Finite? ==> s.r == q.r * c
    ensures s.NaN? <==> q.NaN?
  {
    match q
    case Finite(x) => Finite(x * c)
    case PosInf => PosInf
    case NaN => NaN
  }

  /** `fillna(v)`: only `NaN` is replaced. */
  function FillNa(q: Ext, v: real): (f: Ext)
    ensures !f.NaN?
    ensures !q.NaN? ==> f == q
  {
    if q.NaN? then Finite(v) else q
  }

  /** How `sort_values` sees the cell. */
  function KeyOf(q: Ext): (k: Key)
    ensures k.Missing? <==> q.NaN?
  {
    match q
    case Finite(x) => Value(x)
    case PosInf => Infinite
    case NaN => Missing
  }

  /** `a <= b` on cells that are not `NaN`. */
  predicate ExtAtMost(a: Ext, b: Ext)
    requires !a.NaN? && !b.NaN?
  {
    AtMost(KeyOf(a), KeyOf(b))
  }

  /** `i` is what `Series.idxmax()` returns (as a position): the first
      position of the largest non-`NaN` value; `NaN` cells are skipped. */
  predicate IsFirstArgMax(xs: seq<Ext>, i: nat) {
    && i < |xs|
    && !xs[i].NaN?
    && (forall j | 0 <= j < |xs| && !xs[j].NaN? :: ExtAtMost(xs[j], xs[i]))
    && (forall j | 0 <= j < i && !xs[j].NaN? :: !ExtAtMost(xs[i], xs[j]))
  }

  /** At most one position is the first maximum. */
  lemma FirstArgMaxUnique(xs: seq<Ext>, i: nat, j: nat)
    requires IsFirstArgMax(xs, i) && IsFirstArgMax(xs, j)
    ensures i == j
  {
  }

  /** `idxmax()` by a left-to-right scan that replaces the best position only
      on a strictly larger value. A column of nothing but `NaN` has no
      maximum; pandas then has no row to return, modelled as `None`. */
  method FirstArgMax(xs: seq<Ext>) returns (r: Option<nat>)
    ensures r.Some? ==> IsFirstArgMax(xs, r.value)
    ensures r.None? <==> forall j | 0 <= j < |xs| :: xs[j].NaN?
  {
    r := None;
    var k := 0;
    while k < |xs|
      invariant 0 <= k <= |xs|
      invariant r.None? <==> forall j | 0 <= j < k :: xs[j].NaN?
      invariant r.Some? ==> IsFirstArgMax(xs[..k], r.value)
    {
      if !xs[k].NaN? && (r.None? || !ExtAtMost(xs[k], xs[r.value])) {
        r := Some(k);
      }
      k := k + 1;
    }
    assert xs[..k] == xs;
  }
}

=== FILE: tables.dfy ===
/** The table operations the views apply to rows: `sort_values` on one
    column in either direction with missing values placed last, `head(n)`,
    and a boolean-mask filter. */
module Tables {

  /** A sort key as pandas sees a cell: a number, positive infinity, or a
      missing value (`NaN` / `NaT`). */
  datatype Key = Value(v: real) | Infinite | Missing

  /** Ascending order on present keys: numbers by magnitude, infinity above all. */
  predicate AtMost(a: Key, b: Key)
    requires !a.Missing? && !b.Missing?
  {
    if b.Infinite? then true
    else if a.Infinite? then false
    else a.v <= b.v
  }

  /** Whether a row keyed `a` may stand before a row keyed `b` in a sort in
      the given direction; `sort_values` puts missing keys last whichever
      the direction. */
  predicate Precedes(a: Key, b: Key, descending: bool) {
    if b.Missing? then true
    else if a.Missing? then false
    else if descending then AtMost(b, a) else AtMost(a, b)
  }

  lemma PrecedesTotal(a: Key, b: Key, descending: bool)
    ensures Precedes(a, b, descending) || Precedes(b, a, descending)
  {
  }

  lemma PrecedesTransitive(a: Key, b: Key, c: Key, descending: bool)
    requires Precedes(a, b, descending) && Precedes(b, c, descending)
    ensures Precedes(a, c, descending)
  {
  }

  /** Reversing the direction reverses the order of present keys, and missing keys stay last. */
  lemma PrecedesFlip(a: Key, b: Key)
    requires !a.Missing? && !b.Missing?
    ensures Precedes(a, b, true) <==> Precedes(b, a, false)
  {
  }

  predicate SortedBy<T>(xs: seq<T>, key: T -> Key, descending: bool) {
    forall i, j | 0 <= i < j < |xs| :: Precedes(key(xs[i]), key(xs[j]), descending)
  }

  /** Putting in front a row that may precede every row of a sorted
      sequence keeps it sorted. */
  lemma SortedCons<T>(x: T, xs: seq<T>, key: T -> Key, descending: bool)
    requires SortedBy(xs, key, descending)
    requires forall j | 0 <= j < |xs| :: Precedes(key(x), key(xs[j]), descending)
    ensures SortedBy([x] + xs, key, descending)
  {
    var r := [x] + xs;
    forall i, j | 0 <= i < j < |r|
      ensures Precedes(key(r[i]), key(r[j]), descending)
    {
      assert r[j] == xs[j - 1];
      if i > 0 { assert r[i] == xs[i - 1]; }
    }
  }

  /** The head of a sorted sequence may precede every later row. */
  lemma HeadPrecedes<T>(xs: seq<T>, key: T -> Key, descending: bool, y: T)
    requires SortedBy(xs, key, descending) && |xs| > 0
    requires y in multiset(xs[1..])
    ensures Precedes(key(xs[0]), key(y), descending)
  {
    assert y in xs[1..];
    var j :| 0 <= j < |xs[1..]| && xs[1..][j] == y;
    assert xs[j + 1] == y;
  }

  /** Places `x` into a sorted sequence. */
  function Insert<T(==)>(x: T, xs: seq<T>, key: T -> Key, descending: bool): (r: seq<T>)
    requires SortedBy(xs, key, descending)
    ensures multiset(r) == multiset(xs) + multiset{x}
    ensures SortedBy(r, key, descending)
  {
    if |xs| == 0 then [x]
    else if Precedes(key(x), key(xs[0]), descending) then
      assert forall j | 0 <= j < |xs| :: Precedes(key(x), key(xs[j]), descending) by {
        forall j | 0 < j < |xs| {
          PrecedesTransitive(key(x), key(xs[0]), key(xs[j]), descending);
        }
      }
      SortedCons(x, xs, key, descending);
      [x] + xs
    else
      var tail := Insert(x, xs[1..], key, descending);
      assert forall j | 0 <= j < |tail| :: Precedes(key(xs[0]), key(tail[j]), descending) by {
        forall j | 0 <= j < |tail|
          ensures Precedes(key(xs[0]), key(tail[j]), descending)
        {
          PrecedesTotal(key(x), key(xs[0]), descending);
          assert tail[j] in multiset(tail);
          if tail[j] != x { HeadPrecedes(xs, key, descending, tail[j]); }
        }
      }
      SortedCons(xs[0], tail, key, descending);
      assert xs == [xs[0]] + xs[1..];
      [xs[0]] + tail
  }

  /** `sort_values(by=key, ascending=not descending)`. The sort pandas runs
      is not stable, so only the order of keys and the multiset of rows are
      fixed; among rows with equal keys this sort picks one arrangement. */
  function SortBy<T(==)>(xs: seq<T>, key: T -> Key, descending: bool): (r: seq<T>)
    ensures multiset(r) == multiset(xs)
    ensures SortedBy(r, key, descending)
  {
    if |xs| == 0 then []
    else
      assert xs == [xs[0]] + xs[1..];
      Insert(xs[0], SortBy(xs[1..], key, descending), key, descending)
  }

  /** A permutation keeps the length. */
  lemma PermutationLength<T>(xs: seq<T>, ys: seq<T>)
    requires multiset(xs) == multiset(ys)
    ensures |xs| == |ys|
  {
    assert |multiset(xs)| == |xs| && |multiset(ys)| == |ys|;
  }

  function Min(a: nat, b: nat): nat {
    if a <= b then a else b
  }

  /** In a descending sort, a prefix is itself sorted, and each of its rows
      is at least every row after it. */
  lemma PrefixDominates<T>(s: seq<T>, key: T -> Key, k: nat)
    requires SortedBy(s, key, true) && k <= |s|
    ensures SortedBy(s[..k], key, true)
    ensures multiset(s[..k]) <= multiset(s)
    ensures forall i, y | 0 <= i < k && y in multiset(s) - multiset(s[..k]) :: Precedes(key(s[i]), key(y), true)
  {
    assert s == s[..k] + s[k..];
    assert multiset(s) - multiset(s[..k]) == multiset(s[k..]);
    forall i, y | 0 <= i < k && y in multiset(s[k..])
      ensures Precedes(key(s[i]), key(y), true)
    {
      assert y in s[k..];
      var j :| 0 <= j < |s[k..]| && s[k..][j] == y;
      assert s[k + j] == y;
    }
  }

  /** Every row of `top` ranks, in descending order, at least as high as
      every row of `all` that `top` leaves out. */
  predicate Dominates<T(==)>(top: seq<T>, all: seq<T>, key: T -> Key) {
    forall i, y | 0 <= i < |top| && y in multiset(all) - multiset(top) :: Precedes(key(top[i]), key(y), true)
  }

  /** `sort_values(by=key, ascending=False).head(n)`: the `n` rows with the
      largest keys. */
  function TopN<T(==)>(xs: seq<T>, key: T -> Key, n: nat): (r: seq<T>)
    ensures |r| == Min(n, |xs|)
    ensures multiset(r) <= multiset(xs)
    ensures SortedBy(r, key, true)
    ensures Dominates(r, xs, key)
  {
    var s := SortBy(xs, key, true);
    PermutationLength(s, xs);
    PrefixDominates(s, key, Min(n, |s|));
    s[..Min(n, |s|)]
  }

  /** `xs[mask]` for the mask `keep`: exactly the rows that satisfy it, in order. */
  function Filter<T(==,!new)>(xs: seq<T>, keep: T -> bool): (r: seq<T>)
    ensures forall y :: multiset(r)[y] == if keep(y) then multiset(xs)[y] else 0
    ensures forall i | 0 <= i < |r| :: keep(r[i])
  {
    if |xs| == 0 then []
    else
      var rest := Filter(xs[1..], keep);
      assert xs == [xs[0]] + xs[1..];
      if keep(xs[0]) then [xs[0]] + rest else rest
  }

  /** A filter every row passes drops nothing. */
  lemma {:induction false} FilterKeepsAll<T(!new)>(xs: seq<T>, keep: T -> bool)
    requires forall i | 0 <= i < |xs| :: keep(xs[i])
    ensures Filter(xs, keep) == xs
  {
    if |xs| > 0 {
      FilterKeepsAll(xs[1..], keep);
    }
  }

  /** A filter keeps the relative order of the rows it keeps: filtering a
      sorted sequence leaves it sorted. */
  lemma {:induction false} FilterKeepsOrder<T(!new)>(xs: seq<T>, keep: T -> bool, key: T -> Key, descending: bool)
    requires SortedBy(xs, key, descending)
    ensures SortedBy(Filter(xs, keep), key, descending)
  {
    if |xs| > 0 {
      assert SortedBy(xs[1..], key, descending);
      FilterKeepsOrder(xs[1..], keep, key, descending);
      var rest := Filter(xs[1..], keep);
      if keep(xs[0]) {
        forall j | 0 <= j < |rest|
          ensures Precedes(key(xs[0]), key(rest[j]), descending)
        {
          assert rest[j] in multiset(rest);
          HeadPrecedes(xs, key, descending, rest[j]);
        }
        SortedCons(xs[0], rest, key, descending);
      }
    }
  }

}

=== FILE: text.dfy ===
/** Decimal numerals, zero padding, splitting on a separator and the
    lexicographic order Python uses for `str` comparison. */
module Text {

  predicate IsDigit(c: char) {
    '0' <= c <= '9'
  }

  /** Every character of `s` is a decimal digit (the empty string included). */
  predicate AllDigits(s: string) {
    forall i | 0 <= i < |s| :: IsDigit(s[i])
  }

  /** A non-empty run of decimal digits. */
  predicate IsNumeral(s: string) {
    |s| > 0 && AllDigits(s)
  }

  function DigitValue(c: char): (d: nat)
    requires IsDigit(c)
    ensures d < 10
  {
    c as int - '0' as int
  }

  function DigitChar(d: nat): (c: char)
    requires d < 10
    ensures IsDigit(c) && DigitValue(c) == d
  {
    ('0' as int + d) as char
  }

  function Pow10(k: nat): (p: nat)
    ensures p >= 1
  {
    if k == 0 then 1 else 10 * Pow10(k - 1)
  }

  /** The number a digit string denotes, most significant digit first;
      leading zeros are allowed, as in Python's `int("007")`. */
  function Value(s: string): (v: nat)
    requires AllDigits(s)
    ensures v < Pow10(|s|)
  {
    if |s| == 0 then 0
    else
      assert AllDigits(s[..|s| - 1]);
      10 * Value(s[..|s| - 1]) + DigitValue(s[|s| - 1])
  }

  /** Python's `str(n)` for a natural number: shortest decimal numeral. */
  function NatToString(n: nat): (s: string)
    ensures IsNumeral(s)
    ensures Value(s) == n
    ensures s[0] != '0' || |s| == 1
  {
    if n < 10 then [DigitChar(n)]
    else
      var prefix := NatToString(n / 10);
      var s := prefix + [DigitChar(n % 10)];
      assert s[..|s| - 1] == prefix;
      s
  }

  /** A numeral as `str(n)` writes it: no leading zero unless it is `0`. */
  predicate IsCanonical(s: string) {
    IsNumeral(s) && NatToString(Value(s)) == s
  }

  /** `f"{n:0{width}d}"` for a number that fits in `width` digits. */
  function Pad(n: nat, width: nat): (s: string)
    requires n < Pow10(width)
    ensures |s| == width && AllDigits(s)
    ensures Value(s) == n
  {
    if width == 0 then ""
    else
      var prefix := Pad(n / 10, width - 1);
      var s := prefix + [DigitChar(n % 10)];
      assert s[..|s| - 1] == prefix;
      s
  }

  /** Two-digit padding spelled out: tens digit, then units digit. */
  lemma PadTwo(n: nat)
    requires n < 100
    ensures Pow10(2) == 100
    ensures Pad(n, 2) == [DigitChar(n / 10), DigitChar(n % 10)]
  {
    assert Pow10(2) == 100;
    assert Pad(n / 10, 1) == [DigitChar(n / 10)] by {
      assert Pad(n / 10 / 10, 0) == "";
    }
  }

  /** The last digit of a numeral is its value modulo ten; the rest is the quotient. */
  lemma ValueLast(d: string)
    requires AllDigits(d) && |d| > 0
    ensures AllDigits(d[..|d| - 1])
    ensures Value(d) / 10 == Value(d[..|d| - 1]) && Value(d) % 10 == DigitValue(d[|d| - 1])
  {
    assert AllDigits(d[..|d| - 1]);
  }

  /** A fixed-width digit string is the padding of its own value. */
  lemma {:induction false} PadValue(d: string)
    requires AllDigits(d)
    ensures Pad(Value(d), |d|) == d
  {
    if |d| > 0 {
      var prefix, last := d[..|d| - 1], d[|d| - 1];
      ValueLast(d);
      PadValue(prefix);
      assert DigitChar(DigitValue(last)) == last;
      assert d == prefix + [last];
    }
  }



  /** Length of the run of digits at the front of `s`. */
  function DigitRun(s: string): (k: nat)
    ensures k <= |s|
    ensures AllDigits(s[..k])
    ensures k < |s| ==> !IsDigit(s[k])
  {
    if |s| == 0 || !IsDigit(s[0]) then 0
    else
      var k := 1 + DigitRun(s[1..]);
      assert s[..k] == [s[0]] + s[1..][..k - 1];
      k
  }

  /** Reading digits stops exactly where a numeral ends. */
  lemma {:induction false} DigitRunOfNumeral(d: string, rest: string)
    requires AllDigits(d)
    requires rest == [] || !IsDigit(rest[0])
    ensures DigitRun(d + rest) == |d|
  {
    if |d| > 0 {
      assert (d + rest)[1..] == d[1..] + rest;
      DigitRunOfNumeral(d[1..], rest);
    }
  }

  /** Python's `s.split(sep)`: the pieces between occurrences of `sep`. */
  function Split(s: string, sep: char): (parts: seq<string>)
    ensures |parts| >= 1
  {
    if |s| == 0 then [""]
    else
      var rest := Split(s[1..], sep);
      if s[0] == sep then [""] + rest else [[s[0]] + rest[0]] + rest[1..]
  }

  /** `sep.join(parts)`, the inverse of `Split`. */
  function Join(parts: seq<string>, sep: char): string
    requires |parts| >= 1
  {
    if |parts| == 1 then parts[0] else parts[0] + [sep] + Join(parts[1..], sep)
  }

  /** Splitting and joining again gives back the original string. */
  lemma {:induction false} JoinSplit(s: string, sep: char)
    ensures Join(Split(s, sep), sep) == s
  {
    if |s| > 0 {
      JoinSplit(s[1..], sep);
      var rest := Split(s[1..], sep);
      if s[0] != sep {
        var parts := [[s[0]] + rest[0]] + rest[1..];
        if |rest| == 1 {
          assert Join(parts, sep) == [s[0]] + rest[0];
        } else {
          assert parts[1..] == rest[1..];
          assert Join(parts, sep) == [s[0]] + (rest[0] + [sep] + Join(rest[1..], sep));
        }
        assert s == [s[0]] + s[1..];
      } else {
        assert ([""] + rest)[1..] == rest;
        assert s == [sep] + s[1..];
      }
    }
  }

  /** A string without the separator is a single piece. */
  lemma {:induction false} SplitNoSeparator(a: string, sep: char)
    requires sep !in a
    ensures Split(a, sep) == [a]
  {
    if |a| > 0 {
      assert sep !in a[1..];
      SplitNoSeparator(a[1..], sep);
      assert a == [a[0]] + a[1..];
    }
  }

  /** Splitting peels off a leading separator-free piece. */
  lemma {:induction false} SplitCons(a: string, sep: char, b: string)
    requires sep !in a
    ensures Split(a + [sep] + b, sep) == [a] + Split(b, sep)
  {
    if |a| == 0 {
      assert a + [sep] + b == [sep] + b;
      assert ([sep] + b)[1..] == b;
    } else {
      assert (a + [sep] + b)[1..] == a[1..] + [sep] + b;
      assert sep !in a[1..];
      SplitCons(a[1..], sep, b);
      assert a == [a[0]] + a[1..];
    }
  }

  /** Two separator-free pieces joined by the separator split back apart. */
  lemma SplitTwo(a: string, b: string, sep: char)
    requires sep !in a && sep !in b
    ensures Split(a + [sep] + b, sep) == [a, b]
  {
    SplitNoSeparator(b, sep);
    SplitCons(a, sep, b);
  }

  /** Three separator-free pieces joined by the separator split back apart. */
  lemma SplitThree(a: string, b: string, c: string, sep: char)
    requires sep !in a && sep !in b && sep !in c
    ensures Split(a + [sep] + b + [sep] + c, sep) == [a, b, c]
  {
    assert a + [sep] + b + [sep] + c == a + [sep] + (b + [sep] + c);
    SplitTwo(b, c, sep);
    SplitCons(a, sep, b + [sep] + c);
  }

  /** Python's `a < b` on strings: lexicographic by code point. */
  predicate LexLess(a: string, b: string) {
    if |a| == 0 then |b| > 0
    else if |b| == 0 then false
    else if a[0] != b[0] then a[0] < b[0]
    else LexLess(a[1..], b[1..])
  }

  /** Comparing two concatenations whose first parts have equal length:
      the first parts decide unless they are equal. */
  lemma {:induction false} LexLessConcat(a: string, x: string, b: string, y: string)
    requires |a| == |b|
    ensures LexLess(a + x, b + y) == if a == b then LexLess(x, y) else LexLess(a, b)
  {
    if |a| > 0 {
      assert (a + x)[1..] == a[1..] + x;
      assert (b + y)[1..] == b[1..] + y;
      LexLessConcat(a[1..], x, b[1..], y);
      if a[0] == b[0] {
        assert a == b <==> a[1..] == b[1..] by {
          assert a == [a[0]] + a[1..];
          assert b == [b[0]] + b[1..];
        }
      }
    } else {
      assert a + x == x && b + y == y;
    }
  }

  /** On numbers padded to a common width, string order is numeric order. */
  lemma {:induction false} LexLessPad(m: nat, n: nat, width: nat)
    requires m < Pow10(width) && n < Pow10(width)
    ensures LexLess(Pad(m, width), Pad(n, width)) <==> m < n
  {
    if width == 0 {
    } else {
      var pm, pn := Pad(m / 10, width - 1), Pad(n / 10, width - 1);
      LexLessPad(m / 10, n / 10, width - 1);
      LexLessConcat(pm, [DigitChar(m % 10)], pn, [DigitChar(n % 10)]);
      assert pm == pn <==> m / 10 == n / 10 by {
        if pm == pn { assert Value(pm) == Value(pn); }
      }
      assert LexLess([DigitChar(m % 10)], [DigitChar(n % 10)]) <==> m % 10 < n % 10 by {
        assert [DigitChar(m % 10)][1..] == [] && [DigitChar(n % 10)][1..] == [];
      }
      DivModOrder(m, n);
    }
  }

  /** Comparing by tens first, then by units, is comparing the numbers. */
  lemma DivModOrder(m: nat, n: nat)
    ensures m < n <==> (m / 10 < n / 10 || (m / 10 == n / 10 && m % 10 < n % 10))
  {
    assert m == 10 * (m / 10) + m % 10;
    assert n == 10 * (n / 10) + n % 10;
    if m / 10 < n / 10 {
      assert 10 * (m / 10) + 10 <= 10 * (n / 10);
    } else if n / 10 < m / 10 {
      assert 10 * (n / 10) + 10 <= 10 * (m / 10);
    }
  }
}

=== FILE: timestamps.dfy ===
/** Publish times: the fixed-width `YYYY-MM-DDTHH:MM:SSZ` profile of the
    date-time format of section 5.6 of RFC 3339 that the provider emits, read
    as `datetime.strptime(text, "%Y-%m-%dT%H:%M:%SZ")` reads it, displayed
    with `strftime("%b %d, %Y")`, and ordered in time. */
module Timestamps {
  import opened Wrappers
  import opened Text

  datatype Timestamp = Timestamp(year: nat, month: nat, day: nat, hour: nat, minute: nat, second: nat)

  /** Gregorian leap years. */
  predicate IsLeapYear(y: nat) {
    y % 4 == 0 && (y % 100 != 0 || y % 400 == 0)
  }

  function DaysInMonth(y: nat, m: nat): nat
    requires 1 <= m <= 12
  {
    if m == 2 then (if IsLeapYear(y) then 29 else 28)
    else if m == 4 || m == 6 || m == 9 || m == 11 then 30
    else 31
  }

  /** What `datetime` accepts: years 1 to 9999, a day that exists in its
      month, and seconds below 60. */
  predicate Valid(t: Timestamp) {
    && 1 <= t.year <= 9999
    && 1 <= t.month <= 12
    && 1 <= t.day <= DaysInMonth(t.year, t.month)
    && t.hour < 24 && t.minute < 60 && t.second < 60
  }

  /** A time `datetime` can represent. */
  type ValidTimestamp = t: Timestamp | Valid(t) witness Timestamp(1, 1, 1, 0, 0, 0)

  /** The fixed layout: digit fields at positions 0-3, 5-6, 8-9, 11-12,
      14-15 and 17-18, with `-`, `-`, `T`, `:`, `:` and `Z` between them. */
  predicate IsLayout(s: string) {
    && |s| == 20
    && s[4] == '-' && s[7] == '-' && s[10] == 'T' && s[13] == ':' && s[16] == ':' && s[19] == 'Z'
    && AllDigits(s[0..4]) && AllDigits(s[5..7]) && AllDigits(s[8..10])
    && AllDigits(s[11..13]) && AllDigits(s[14..16]) && AllDigits(s[17..19])
  }

  /** The fields a well-laid-out text denotes, before range checks. */
  function FieldsOf(s: string): Timestamp
    requires IsLayout(s)
  {
    Timestamp(Value(s[0..4]), Value(s[5..7]), Value(s[8..10]), Value(s[11..13]), Value(s[14..16]), Value(s[17..19]))
  }

  /** `strptime` with the fixed format: a text off the layout, or naming a
      time that does not exist, raises; the error carries the text. */
  function ParseTimestamp(s: string): Result<Timestamp, string> {
    if !IsLayout(s) then Failure(s)
    else if !Valid(FieldsOf(s)) then Failure(s)
    else Success(FieldsOf(s))
  }

  /** A two-digit field, `%02d`. */
  function Two(n: nat): string
    requires n < 100
  {
    assert Pow10(2) == 100;
    Pad(n, 2)
  }

  /** A two-digit field, then a separator, then the rest of the text. */
  function Field(n: nat, sep: char, rest: string): string
    requires n < 100
  {
    Two(n) + ([sep] + rest)
  }

  /** Writes a time in the fixed layout, field by field. */
  function RenderTimestamp(t: Timestamp): string
    requires Valid(t)
  {
    assert Pow10(4) == 10000;
    Pad(t.year, 4) + ['-'] + MonthOn(t)
  }

  /** The text from the month field on: `MM-DDTHH:MM:SSZ`. */
  function MonthOn(t: Timestamp): string
    requires Valid(t)
  {
    Field(t.month, '-', DayOn(t))
  }

  /** `DDTHH:MM:SSZ` */
  function DayOn(t: Timestamp): string
    requires Valid(t)
  {
    Field(t.day, 'T', HourOn(t))
  }

  /** `HH:MM:SSZ` */
  function HourOn(t: Timestamp): string
    requires Valid(t)
  {
    Field(t.hour, ':', MinuteOn(t))
  }

  /** `MM:SSZ` */
  function MinuteOn(t: Timestamp): string
    requires Valid(t)
  {
    Field(t.minute, ':', SecondOn(t))
  }

  /** `SSZ` */
  function SecondOn(t: Timestamp): string
    requires Valid(t)
  {
    Two(t.second) + "Z"
  }

  lemma FieldLayout(n: nat, sep: char, rest: string)
    requires n < 100
    ensures |Field(n, sep, rest)| == 3 + |rest|
    ensures AllDigits(Field(n, sep, rest)[0..2]) && Value(Field(n, sep, rest)[0..2]) == n
    ensures Field(n, sep, rest)[2] == sep && Field(n, sep, rest)[3..] == rest
  {
    var f := Field(n, sep, rest);
    assert f[0..2] == Two(n);
  }

  /** The rendering is laid out as the parser expects, each field in its place. */
  lemma RenderLayout(t: Timestamp)
    requires Valid(t)
    ensures IsLayout(RenderTimestamp(t))
    ensures FieldsOf(RenderTimestamp(t)) == t
  {
    assert Pow10(4) == 10000;
    var s := RenderTimestamp(t);
    var ss := Two(t.second) + "Z";
    var ns := Field(t.minute, ':', ss);
    var hs := Field(t.hour, ':', ns);
    var ds := Field(t.day, 'T', hs);
    var ms := Field(t.month, '-', ds);
    assert ms == MonthOn(t);
    FieldLayout(t.month, '-', ds);
    FieldLayout(t.day, 'T', hs);
    FieldLayout(t.hour, ':', ns);
    FieldLayout(t.minute, ':', ss);
    assert |ss| == 3 && ss[0..2] == Two(t.second) && ss[2] == 'Z';
    assert s[0..4] == Pad(t.year, 4) && s[4] == '-' && s[5..] == ms;
    assert s[5..7] == ms[0..2] && s[7] == ms[2] && s[8..] == ds;
    assert s[8..10] == ds[0..2] && s[10] == ds[2] && s[11..] == hs;
    assert s[11..13] == hs[0..2] && s[13] == hs[2] && s[14..] == ns;
    assert s[14..16] == ns[0..2] && s[16] == ns[2] && s[17..] == ss;
    assert s[17..19] == ss[0..2] && s[19] == ss[2];
  }

  /** Every valid time, rendered, parses back to itself. */
  lemma ParseRenderTimestamp(t: Timestamp)
    requires Valid(t)
    ensures ParseTimestamp(RenderTimestamp(t)) == Success(t)
  {
    RenderLayout(t);
  }

  /** A field at `start` followed by the separator at `start + 2`, read back. */
  lemma FieldOfText(s: string, start: nat)
    requires start + 3 <= |s| && AllDigits(s[start..start + 2])
    ensures Value(s[start..start + 2]) < 100
    ensures Field(Value(s[start..start + 2]), s[start + 2], s[start + 3..]) == s[start..]
  {
    var d, rest := s[start..start + 2], s[start + 3..];
    assert Value(d) < 100 by {
      assert Pow10(2) == 100;
    }
    assert Two(Value(d)) == d by {
      PadValue(d);
    }
    assert s[start..] == d + ([s[start + 2]] + rest);
  }

  /** Conversely, a text that parses is the rendering of what it parses to:
      the format has exactly one spelling per time. */
  lemma RenderParseTimestamp(s: string)
    requires ParseTimestamp(s).Success?
    ensures RenderTimestamp(ParseTimestamp(s).value) == s
  {
    var t := ParseTimestamp(s).value;
    assert t == FieldsOf(s);
    assert SecondOn(t) == s[17..] by {
      assert Pow10(2) == 100;
      PadValue(s[17..19]);
      assert s[17..] == s[17..19] + [s[19]];
    }
    assert MinuteOn(t) == s[14..] by { FieldOfText(s, 14); }
    assert HourOn(t) == s[11..] by { FieldOfText(s, 11); }
    assert DayOn(t) == s[8..] by { FieldOfText(s, 8); }
    assert MonthOn(t) == s[5..] by { FieldOfText(s, 5); }
    assert Pad(t.year, 4) == s[0..4] by {
      assert Pow10(4) == 10000;
      PadValue(s[0..4]);
    }
    assert s == s[0..4] + [s[4]] + s[5..];
  }

  /** `%b` in the C locale. */
  function MonthAbbrev(m: nat): string
    requires 1 <= m <= 12
  {
    ["Jan", "Feb", "Mar", "Apr", "May", "Jun", "Jul", "Aug", "Sep", "Oct", "Nov", "Dec"][m - 1]
  }

  /** The month an abbreviation names. */
  function MonthNamed(name: string): Option<nat> {
    if name == "Jan" then Some(1) else if name == "Feb" then Some(2)
    else if name == "Mar" then Some(3) else if name == "Apr" then Some(4)
    else if name == "May" then Some(5) else if name == "Jun" then Some(6)
    else if name == "Jul" then Some(7) else if name == "Aug" then Some(8)
    else if name == "Sep" then Some(9) else if name == "Oct" then Some(10)
    else if name == "Nov" then Some(11) else if name == "Dec" then Some(12)
    else None
  }

  /** The `published_date` column: `strftime("%b %d, %Y")`, e.g. `Jan 05, 2023`.
      The C library behind `strftime` on Linux does not pad `%Y`. */
  function DisplayDate(t: Timestamp): string
    requires Valid(t)
  {
    assert Pow10(2) == 100;
    MonthAbbrev(t.month) + " " + (Pad(t.day, 2) + ",") + " " + NatToString(t.year)
  }

  /** Reads a `Mon DD, YYYY` display back into (year, month, day). */
  function ReadDisplayDate(d: string): Option<(nat, nat, nat)> {
    var parts := Split(d, ' ');
    if |parts| == 3 && MonthNamed(parts[0]).Some?
       && |parts[1]| == 3 && parts[1][2] == ',' && AllDigits(parts[1][..2])
       && IsNumeral(parts[2])
    then Some((Value(parts[2]), MonthNamed(parts[0]).value, Value(parts[1][..2])))
    else None
  }

  lemma MonthNamedAbbrev(m: nat)
    requires 1 <= m <= 12
    ensures MonthNamed(MonthAbbrev(m)) == Some(m)
    ensures ' ' !in MonthAbbrev(m)
  {
  }

  /** The display keeps the calendar date: reading it back gives the year,
      month and day of the time displayed. */
  lemma DisplayDateRoundTrip(t: Timestamp)
    requires Valid(t)
    ensures ReadDisplayDate(DisplayDate(t)) == Some((t.year, t.month, t.day))
  {
    assert Pow10(2) == 100;
    var mon, dd, yy := MonthAbbrev(t.month), Pad(t.day, 2) + ",", NatToString(t.year);
    MonthNamedAbbrev(t.month);
    assert dd[..2] == Pad(t.day, 2);
    assert ' ' !in dd;
    assert ' ' !in yy;
    SplitThree(mon, dd, yy, ' ');
    assert DisplayDate(t) == mon + [' '] + dd + [' '] + yy;
  }

  lemma YearNumeral()
    ensures NatToString(2023) == "2023"
  {
    assert NatToString(2) == "2";
    assert NatToString(20) == "20";
    assert NatToString(202) == "202";
  }

  /** A worked example: the display of 5 January 2023. */
  lemma DisplayDateExample()
    ensures DisplayDate(Timestamp(2023, 1, 5, 12, 0, 0)) == "Jan 05, 2023"
  {
    assert Pow10(2) == 100;
    assert Pad(5, 2) == "05" by {
      assert Pad(0, 1) == "0";
    }
    YearNumeral();
    assert MonthAbbrev(1) == "Jan";
  }

  // ---------------------------------------------------------------------------
  // Order in time

  /** Chronological order of times: the earlier year, then month, day,
      hour, minute and second. */
  predicate Before(a: Timestamp, b: Timestamp) {
    a.year < b.year || (a.year == b.year && MonthBefore(a, b))
  }

  /** The order from the month field on, as the rendering nests its fields. */
  predicate MonthBefore(a: Timestamp, b: Timestamp) {
    NestedBefore([a.month, a.day, a.hour, a.minute, a.second], [b.month, b.day, b.hour, b.minute, b.second])
  }

  /** Lexicographic order on two number sequences of the same length. */
  predicate NestedBefore(xs: seq<nat>, ys: seq<nat>)
    requires |xs| == |ys|
  {
    |xs| > 0 && (xs[0] < ys[0] || (xs[0] == ys[0] && NestedBefore(xs[1..], ys[1..])))
  }

  function DaysInYear(y: nat): nat {
    if IsLeapYear(y) then 366 else 365
  }

  /** Days from 1 January of year 1 to 1 January of year `y`. */
  function DaysBeforeYear(y: nat): nat {
    if y <= 1 then 0 else DaysBeforeYear(y - 1) + DaysInYear(y - 1)
  }

  /** Days from 1 January of `y` to the first of month `m` (`m == 13`: the year's end). */
  function DaysBeforeMonth(y: nat, m: nat): nat
    requires 1 <= m <= 13
  {
    if m == 1 then 0 else DaysBeforeMonth(y, m - 1) + DaysInMonth(y, m - 1)
  }

  /** Seconds since 0001-01-01T00:00:00Z, the instant a time names; pandas
      orders `datetime64` values by their distance from a fixed epoch, which
      differs from this count by a constant. */
  function Instant(t: Timestamp): nat
    requires Valid(t)
  {
    86400 * (DaysBeforeYear(t.year) + DaysBeforeMonth(t.year, t.month) + t.day - 1)
      + 3600 * t.hour + 60 * t.minute + t.second
  }

  lemma YearLength(y: nat)
    ensures DaysBeforeMonth(y, 13) == DaysInYear(y)
  {
    var feb := if IsLeapYear(y) then 29 else 28;
    assert DaysBeforeMonth(y, 2) == 31;
    assert DaysBeforeMonth(y, 3) == 31 + feb;
    assert DaysBeforeMonth(y, 4) == 62 + feb;
    assert DaysBeforeMonth(y, 5) == 92 + feb;
    assert DaysBeforeMonth(y, 6) == 123 + feb;
    assert DaysBeforeMonth(y, 7) == 153 + feb;
    assert DaysBeforeMonth(y, 8) == 184 + feb;
    assert DaysBeforeMonth(y, 9) == 215 + feb;
    assert DaysBeforeMonth(y, 10) == 245 + feb;
    assert DaysBeforeMonth(y, 11) == 276 + feb;
    assert DaysBeforeMonth(y, 12) == 306 + feb;
    assert DaysBeforeMonth(y, 13) == 337 + feb;
  }

  lemma {:induction false} MonthsMonotone(y: nat, m1: nat, m2: nat)
    requires 1 <= m1 <= m2 <= 13
    ensures DaysBeforeMonth(y, m1) <= DaysBeforeMonth(y, m2)
    decreases m2
  {
    if m1 < m2 {
      MonthsMonotone(y, m1, m2 - 1);
    }
  }

  lemma {:induction false} YearsMonotone(y1: nat, y2: nat)
    requires 1 <= y1 < y2
    ensures DaysBeforeYear(y1) + DaysInYear(y1) <= DaysBeforeYear(y2)
    decreases y2
  {
    if y1 < y2 - 1 {
      YearsMonotone(y1, y2 - 1);
    }
  }

  /** The day a valid time falls on, counted from 1 January of year 1. */
  function DayIndex(t: Timestamp): nat
    requires Valid(t)
  {
    DaysBeforeYear(t.year) + DaysBeforeMonth(t.year, t.month) + t.day - 1
  }

  lemma DayIndexWithinYear(t: Timestamp)
    requires Valid(t)
    ensures DayIndex(t) < DaysBeforeYear(t.year) + DaysInYear(t.year)
  {
    MonthsMonotone(t.year, t.month + 1, 13);
    YearLength(t.year);
  }

  lemma DayIndexOrder(a: Timestamp, b: Timestamp)
    requires Valid(a) && Valid(b)
    requires a.year < b.year || (a.year == b.year && (a.month < b.month || (a.month == b.month && a.day < b.day)))
    ensures DayIndex(a) < DayIndex(b)
  {
    if a.year < b.year {
      DayIndexWithinYear(a);
      YearsMonotone(a.year, b.year);
    } else if a.month < b.month {
      MonthsMonotone(a.year, a.month + 1, b.month);
    }
  }

  lemma InstantOrderFromDays(a: Timestamp, b: Timestamp)
    requires Valid(a) && Valid(b)
    requires DayIndex(a) < DayIndex(b)
    ensures Instant(a) < Instant(b)
  {
    assert Instant(a) == 86400 * DayIndex(a) + 3600 * a.hour + 60 * a.minute + a.second;
    assert Instant(b) == 86400 * DayIndex(b) + 3600 * b.hour + 60 * b.minute + b.second;
    assert 3600 * a.hour + 60 * a.minute + a.second < 86400;
    assert 86400 * DayIndex(a) + 86400 <= 86400 * DayIndex(b);
  }

  lemma NestedStep(x: nat, xs: seq<nat>, y: nat, ys: seq<nat>)
    requires |xs| == |ys|
    ensures NestedBefore([x] + xs, [y] + ys) == (x < y || (x == y && NestedBefore(xs, ys)))
  {
    assert ([x] + xs)[1..] == xs && ([y] + ys)[1..] == ys;
  }

  /** The order from the month field on, field by field. */
  lemma MonthBeforeFields(a: Timestamp, b: Timestamp)
    ensures MonthBefore(a, b) ==
      (a.month < b.month || (a.month == b.month &&
      (a.day < b.day || (a.day == b.day &&
      (a.hour < b.hour || (a.hour == b.hour &&
      (a.minute < b.minute || (a.minute == b.minute && a.second < b.second))))))))
  {
    NestedStep(a.second, [], b.second, []);
    NestedStep(a.minute, [a.second], b.minute, [b.second]);
    NestedStep(a.hour, [a.minute, a.second], b.hour, [b.minute, b.second]);
    NestedStep(a.day, [a.hour, a.minute, a.second], b.day, [b.hour, b.minute, b.second]);
    NestedStep(a.month, [a.day, a.hour, a.minute, a.second], b.month, [b.day, b.hour, b.minute, b.second]);
    assert [a.second] == [a.second] + [];
    assert [b.second] == [b.second] + [];
    assert [a.minute, a.second] == [a.minute] + [a.second];
    assert [b.minute, b.second] == [b.minute] + [b.second];
    assert [a.hour, a.minute, a.second] == [a.hour] + [a.minute, a.second];
    assert [b.hour, b.minute, b.second] == [b.hour] + [b.minute, b.second];
    assert [a.day, a.hour, a.minute, a.second] == [a.day] + [a.hour, a.minute, a.second];
    assert [b.day, b.hour, b.minute, b.second] == [b.day] + [b.hour, b.minute, b.second];
    assert [a.month, a.day, a.hour, a.minute, a.second] == [a.month] + [a.day, a.hour, a.minute, a.second];
    assert [b.month, b.day, b.hour, b.minute, b.second] == [b.month] + [b.day, b.hour, b.minute, b.second];
  }

  lemma BeforeImpliesEarlier(a: Timestamp, b: Timestamp)
    requires Valid(a) && Valid(b) && Before(a, b)
    ensures Instant(a) < Instant(b)
  {
    MonthBeforeFields(a, b);
    if a.year < b.year || (a.year == b.year && (a.month < b.month || (a.month == b.month && a.day < b.day))) {
      DayIndexOrder(a, b);
      InstantOrderFromDays(a, b);
    } else {
      assert DayIndex(a) == DayIndex(b);
    }
  }

  lemma BeforeTotal(a: Timestamp, b: Timestamp)
    requires !Before(a, b) && a != b
    ensures Before(b, a)
  {
    MonthBeforeFields(a, b);
    MonthBeforeFields(b, a);
  }

  /** Chronological order of valid times is the order of their instants. */
  lemma BeforeIsInstantOrder(a: Timestamp, b: Timestamp)
    requires Valid(a) && Valid(b)
    ensures Before(a, b) <==> Instant(a) < Instant(b)
  {
    if Before(a, b) {
      BeforeImpliesEarlier(a, b);
    } else if a != b {
      BeforeTotal(a, b);
      BeforeImpliesEarlier(b, a);
    }
  }

  // ---------------------------------------------------------------------------
  // Text order

  lemma LexLessField(m: nat, n: nat, width: nat, x: string, y: string)
    requires m < Pow10(width) && n < Pow10(width)
    ensures LexLess(Pad(m, width) + x, Pad(n, width) + y) == (m < n || (m == n && LexLess(x, y)))
  {
    LexLessConcat(Pad(m, width), x, Pad(n, width), y);
    LexLessPad(m, n, width);
    if Pad(m, width) == Pad(n, width) {
      assert Value(Pad(m, width)) == Value(Pad(n, width));
    }
  }

  lemma LexLessSameHead(c: char, x: string, y: string)
    ensures LexLess([c] + x, [c] + y) == LexLess(x, y)
  {
    assert ([c] + x)[1..] == x && ([c] + y)[1..] == y;
  }

  /** One more field in front: the text order and the field order grow alike. */
  lemma LexLessLevel(m: nat, n: nat, sep: char, x: string, y: string, xs: seq<nat>, ys: seq<nat>)
    requires m < 100 && n < 100 && |xs| == |ys|
    requires LexLess(x, y) == NestedBefore(xs, ys)
    ensures LexLess(Field(m, sep, x), Field(n, sep, y)) == NestedBefore([m] + xs, [n] + ys)
  {
    assert Pow10(2) == 100;
    var tx, ty := [sep] + x, [sep] + y;
    assert Field(m, sep, x) == Pad(m, 2) + tx;
    assert Field(n, sep, y) == Pad(n, 2) + ty;
    LexLessField(m, n, 2, tx, ty);
    LexLessSameHead(sep, x, y);
    NestedStep(m, xs, n, ys);
  }

  /** The last field, `SSZ`: text order is the order of the seconds. */
  lemma LexLessSeconds(m: nat, n: nat)
    requires m < 100 && n < 100
    ensures LexLess(Two(m) + "Z", Two(n) + "Z") == NestedBefore([m], [n])
  {
    var z: string := "Z";
    assert !LexLess(z, z) by {
      assert z[1..] == "";
    }
    assert LexLess(Two(m) + z, Two(n) + z) == (m < n || (m == n && LexLess(z, z))) by {
      assert Pow10(2) == 100;
      LexLessField(m, n, 2, z, z);
    }
    assert NestedBefore([m], [n]) == (m < n) by {
      NestedStep(m, [], n, []);
      assert [m] + [] == [m] && [n] + [] == [n];
    }
  }

  lemma LexLessSecondOn(a: Timestamp, b: Timestamp)
    requires Valid(a) && Valid(b)
    ensures LexLess(SecondOn(a), SecondOn(b)) == NestedBefore([a.second], [b.second])
  {
    LexLessSeconds(a.second, b.second);
  }

  lemma LexLessMinuteOn(a: Timestamp, b: Timestamp)
    requires Valid(a) && Valid(b)
    ensures LexLess(MinuteOn(a), MinuteOn(b)) == NestedBefore([a.minute, a.second], [b.minute, b.second])
  {
    LexLessSecondOn(a, b);
    LexLessLevel(a.minute, b.minute, ':', SecondOn(a), SecondOn(b), [a.second], [b.second]);
    assert [a.minute] + [a.second] == [a.minute, a.second];
    assert [b.minute] + [b.second] == [b.minute, b.second];
  }

  lemma LexLessHourOn(a: Timestamp, b: Timestamp)
    requires Valid(a) && Valid(b)
    ensures LexLess(HourOn(a), HourOn(b)) == NestedBefore([a.hour, a.minute, a.second], [b.hour, b.minute, b.second])
  {
    LexLessMinuteOn(a, b);
    LexLessLevel(a.hour, b.hour, ':', MinuteOn(a), MinuteOn(b), [a.minute, a.second], [b.minute, b.second]);
    assert [a.hour] + [a.minute, a.second] == [a.hour, a.minute, a.second];
    assert [b.hour] + [b.minute, b.second] == [b.hour, b.minute, b.second];
  }

  lemma LexLessDayOn(a: Timestamp, b: Timestamp)
    requires Valid(a) && Valid(b)
    ensures LexLess(DayOn(a), DayOn(b)) == NestedBefore([a.day, a.hour, a.minute, a.second], [b.day, b.hour, b.minute, b.second])
  {
    LexLessHourOn(a, b);
    LexLessLevel(a.day, b.day, 'T', HourOn(a), HourOn(b), [a.hour, a.minute, a.second], [b.hour, b.minute, b.second]);
    assert [a.day] + [a.hour, a.minute, a.second] == [a.day, a.hour, a.minute, a.second];
    assert [b.day] + [b.hour, b.minute, b.second] == [b.day, b.hour, b.minute, b.second];
  }

  lemma LexLessMonthOn(a: Timestamp, b: Timestamp)
    requires Valid(a) && Valid(b)
    ensures LexLess(MonthOn(a), MonthOn(b)) == MonthBefore(a, b)
  {
    LexLessDayOn(a, b);
    LexLessLevel(a.month, b.month, '-', DayOn(a), DayOn(b), [a.day, a.hour, a.minute, a.second], [b.day, b.hour, b.minute, b.second]);
    assert [a.month] + [a.day, a.hour, a.minute, a.second] == [a.month, a.day, a.hour, a.minute, a.second];
    assert [b.month] + [b.day, b.hour, b.minute, b.second] == [b.month, b.day, b.hour, b.minute, b.second];
  }

  /** On renderings, string order is chronological order. */
  lemma LexLessRender(a: Timestamp, b: Timestamp)
    requires Valid(a) && Valid(b)
    ensures LexLess(RenderTimestamp(a), RenderTimestamp(b)) <==> Before(a, b)
  {
    assert Pow10(4) == 10000;
    var ra, rb := ['-'] + MonthOn(a), ['-'] + MonthOn(b);
    assert RenderTimestamp(a) == Pad(a.year, 4) + ra;
    assert RenderTimestamp(b) == Pad(b.year, 4) + rb;
    LexLessField(a.year, b.year, 4, ra, rb);
    assert ra[1..] == MonthOn(a) && rb[1..] == MonthOn(b);
    LexLessMonthOn(a, b);
  }

  /** For texts in the fixed format, comparing the raw strings orders them
      exactly as comparing the instants they name, so sorting the raw
      `publishedAt` strings and sorting the parsed times agree. */
  lemma TextOrderIsTimeOrder(s1: string, s2: string)
    requires ParseTimestamp(s1).Success? && ParseTimestamp(s2).Success?
    ensures LexLess(s1, s2) <==> Instant(ParseTimestamp(s1).value) < Instant(ParseTimestamp(s2).value)
  {
    var a, b := ParseTimestamp(s1).value, ParseTimestamp(s2).value;
    RenderParseTimestamp(s1);
    RenderParseTimestamp(s2);
    LexLessRender(a, b);
    BeforeIsInstantOrder(a, b);
  }
}

=== FILE: video_metrics.dfy ===
/** The query layer of the video view: the two derived percentage columns,
    the minimum-views filter, the six sort orders of the "Sort By" box, the
    metric-to-column map, the top-10 comparison and the time series. */
module VideoMetrics {
  import opened Wrappers
  import opened Tables
  import opened Ratios
  import opened DataProcessing

  /** A row of the view's table: the record and its two derived columns. */
  datatype VideoRow = VideoRow(record: VideoRecord, likesPerView: Ext, commentsPerView: Ext)

  /** `(count / views * 100).fillna(0)`: a percentage of views; `0 / 0`
      becomes 0, while `n / 0` for `n > 0` stays `inf`. */
  function PerView(count: nat, views: nat): (q: Ext)
    ensures views > 0 ==> q.Finite? && q.r * views as real == 100.0 * count as real
    ensures views == 0 && count == 0 ==> q == Finite(0.0)
    ensures views == 0 && count > 0 ==> q.PosInf?
  {
    FillNa(Scale(Divide(count, views), 100.0), 0.0)
  }

  /** Adds `likes_per_view` and `comments_per_view`; every other column,
      and the order of the rows, is left as it was. */
  function AddDerived(records: seq<VideoRecord>): (rows: seq<VideoRow>)
    ensures |rows| == |records|
    ensures forall i | 0 <= i < |rows| :: rows[i].record == records[i]
    ensures forall i | 0 <= i < |rows| :: !rows[i].likesPerView.NaN? && !rows[i].commentsPerView.NaN?
    ensures forall i | 0 <= i < |rows| && records[i].views > 0 ::
      && rows[i].likesPerView.Finite? && rows[i].commentsPerView.Finite?
      && rows[i].likesPerView.r * records[i].views as real == 100.0 * records[i].likes as real
      && rows[i].commentsPerView.r * records[i].views as real == 100.0 * records[i].comments as real
    ensures forall i | 0 <= i < |rows| && records[i].views == 0 ::
      && (records[i].likes == 0 <==> rows[i].likesPerView == Finite(0.0))
      && (records[i].likes > 0 <==> rows[i].likesPerView.PosInf?)
      && (records[i].comments == 0 <==> rows[i].commentsPerView == Finite(0.0))
      && (records[i].comments > 0 <==> rows[i].commentsPerView.PosInf?)
  {
    seq(|records|, i requires 0 <= i < |records| =>
      VideoRow(records[i], PerView(records[i].likes, records[i].views), PerView(records[i].comments, records[i].views)))
  }

  // ---------------------------------------------------------------------------
  // Columns and their keys

  datatype Column = PublishedAt | Views | Likes | Comments | DurationSeconds | LikesPerView | CommentsPerView

  /** The cell of a column as `sort_values` sees it. */
  function ColumnKey(row: VideoRow, c: Column): Key {
    match c
    case PublishedAt => PublishedKey(row.record)
    case Views => Value(row.record.views as real)
    case Likes => Value(row.record.likes as real)
    case Comments => Value(row.record.comments as real)
    case DurationSeconds => Value(row.record.durationSeconds as real)
    case LikesPerView => KeyOf(row.likesPerView)
    case CommentsPerView => KeyOf(row.commentsPerView)
  }

  /** The sort key of one column. */
  function KeyFor(c: Column): VideoRow -> Key {
    (row: VideoRow) => ColumnKey(row, c)
  }

  /** Only the publish time can be missing; counts and derived columns never are. */
  lemma OnlyTimeMissing(row: VideoRow, c: Column)
    requires !row.likesPerView.NaN? && !row.commentsPerView.NaN?
    ensures ColumnKey(row, c).Missing? <==> c == PublishedAt && row.record.publishedAt.None?
  {
  }

  /** The labels of the comparison box, in order. */
  const ComparisonLabels: seq<string> := ["Views", "Likes", "Comments", "Duration", "Like Ratio", "Comment Ratio"]

  /** The labels of the time-series box, in order. */
  const TimeLabels: seq<string> := ["Views", "Likes", "Comments", "Duration", "Like Ratio"]

  /** `metric_map[label]`; a label outside the map raises `KeyError`, here `None`. */
  function MetricColumn(name: string): Option<Column> {
    if name == "Views" then Some(Views)
    else if name == "Likes" then Some(Likes)
    else if name == "Comments" then Some(Comments)
    else if name == "Duration" then Some(DurationSeconds)
    else if name == "Like Ratio" then Some(LikesPerView)
    else if name == "Comment Ratio" then Some(CommentsPerView)
    else None
  }

  /** Every label either box offers is in the map, distinct labels name
      distinct columns, nothing else is in the map, and no label names the
      publish time. */
  lemma MetricMapCovers(a: string, b: string)
    ensures MetricColumn(a).Some? <==> a in ComparisonLabels
    ensures forall t | t in TimeLabels :: t in ComparisonLabels
    ensures MetricColumn(a).Some? && MetricColumn(b).Some? && MetricColumn(a) == MetricColumn(b) ==> a == b
    ensures MetricColumn(a) != Some(PublishedAt)
  {
  }

  // ---------------------------------------------------------------------------
  // Filter and sort

  /** The mask `views >= min_views`. */
  function AtLeastViews(minViews: nat): VideoRow -> bool {
    (row: VideoRow) => row.record.views >= minViews
  }

  /** The rows with at least `minViews` views; a threshold of 0 drops nothing. */
  lemma MinViewsFilter(rows: seq<VideoRow>, minViews: nat)
    ensures forall row ::
      multiset(Filter(rows, AtLeastViews(minViews)))[row] == if row.record.views >= minViews then multiset(rows)[row] else 0
    ensures minViews == 0 ==> Filter(rows, AtLeastViews(minViews)) == rows
  {
    if minViews == 0 {
      FilterKeepsAll(rows, AtLeastViews(minViews));
    }
  }

  /** The "Sort By" choices: the column and whether it is descending. A
      name outside the six leaves the rows as they are. */
  function SortChoice(name: string): Option<(Column, bool)> {
    if name == "Publication Date (Newest)" then Some((PublishedAt, true))
    else if name == "Publication Date (Oldest)" then Some((PublishedAt, false))
    else if name == "Views (High to Low)" then Some((Views, true))
    else if name == "Views (Low to High)" then Some((Views, false))
    else if name == "Likes (High to Low)" then Some((Likes, true))
    else if name == "Engagement Rate (High to Low)" then Some((LikesPerView, true))
    else None
  }

  /** The rows in the order the chosen name asks for. */
  function ApplySort(rows: seq<VideoRow>, name: string): (r: seq<VideoRow>)
    ensures multiset(r) == multiset(rows)
    ensures SortChoice(name).Some? ==> SortedBy(r, KeyFor(SortChoice(name).value.0), SortChoice(name).value.1)
    ensures SortChoice(name).None? ==> r == rows
  {
    match SortChoice(name)
    case Some((c, descending)) => SortBy(rows, KeyFor(c), descending)
    case None => rows
  }

  /** On the "Views" orders, the row order is numeric order of views: high to
      low puts no row with fewer views before one with more, and low to high
      the reverse. */
  lemma ViewsOrders(rows: seq<VideoRow>, i: nat, j: nat)
    ensures i < j < |ApplySort(rows, "Views (High to Low)")| ==>
      ApplySort(rows, "Views (High to Low)")[i].record.views >= ApplySort(rows, "Views (High to Low)")[j].record.views
    ensures i < j < |ApplySort(rows, "Views (Low to High)")| ==>
      ApplySort(rows, "Views (Low to High)")[i].record.views <= ApplySort(rows, "Views (Low to High)")[j].record.views
  {
    var hi, lo := ApplySort(rows, "Views (High to Low)"), ApplySort(rows, "Views (Low to High)");
    if i < j < |hi| {
      assert Precedes(KeyFor(Views)(hi[i]), KeyFor(Views)(hi[j]), true);
    }
    if i < j < |lo| {
      assert Precedes(KeyFor(Views)(lo[i]), KeyFor(Views)(lo[j]), false);
    }
  }

  // ---------------------------------------------------------------------------
  // The view

  /** How many videos the comparison chart shows. */
  const TopCount: nat := 10

  /** The rows the view lists: those with at least `minViews` views, in the
      order the sort name asks for. */
  function ShownRows(records: seq<VideoRecord>, minViews: nat, sortName: string): (shown: seq<VideoRow>)
    ensures forall row ::
      multiset(shown)[row] == if row.record.views >= minViews then multiset(AddDerived(records))[row] else 0
    ensures SortChoice(sortName).Some? ==> SortedBy(shown, KeyFor(SortChoice(sortName).value.0), SortChoice(sortName).value.1)
  {
    var rows := AddDerived(records);
    MinViewsFilter(rows, minViews);
    ApplySort(Filter(rows, AtLeastViews(minViews)), sortName)
  }

  /** What the video view computes: nothing for an empty table; otherwise
      the filtered and sorted rows, the top 10 by the comparison metric, and
      the time series. */
  datatype VideoView =
    | NoData
    | View(shown: seq<VideoRow>, metric: Column, top: seq<VideoRow>, timeMetric: Column, series: seq<VideoRow>)

  /** `display_video_metrics` without its rendering. An empty table returns
      at once. A metric name outside `metric_map` raises `KeyError`; the
      comparison name is looked up first. */
  function DisplayVideoMetrics(records: seq<VideoRecord>, minViews: nat, sortName: string,
                               comparisonName: string, timeName: string): (r: Result<VideoView, string>)
    ensures |records| == 0 ==> r == Success(NoData)
    ensures |records| > 0 ==> (r.Success? <==> MetricColumn(comparisonName).Some? && MetricColumn(timeName).Some?)
    ensures |records| > 0 && r.Success? ==> r.value.View?
    ensures r.Failure? ==> r.error == if MetricColumn(comparisonName).None? then comparisonName else timeName
    ensures r.Success? && r.value.View? ==>
      var v, rows := r.value, AddDerived(records);
      && (forall row ::
            multiset(v.shown)[row] == if row.record.views >= minViews then multiset(rows)[row] else 0)
      && (SortChoice(sortName).Some? ==> SortedBy(v.shown, KeyFor(SortChoice(sortName).value.0), SortChoice(sortName).value.1))
      && v.metric == MetricColumn(comparisonName).value
      && |v.top| == Min(TopCount, |v.shown|)
      && multiset(v.top) <= multiset(v.shown)
      && SortedBy(v.top, KeyFor(v.metric), true)
      && Dominates(v.top, v.shown, KeyFor(v.metric))
      && v.timeMetric == MetricColumn(timeName).value
      && multiset(v.series) == multiset(v.shown)
      && SortedBy(v.series, KeyFor(PublishedAt), false)
  {
    if |records| == 0 then Success(NoData)
    else if MetricColumn(comparisonName).None? then Failure(comparisonName)
    else if MetricColumn(timeName).None? then Failure(timeName)
    else
      var shown := ShownRows(records, minViews, sortName);
      var metric, timeMetric := MetricColumn(comparisonName).value, MetricColumn(timeName).value;
      var top := TopN(shown, KeyFor(metric), TopCount);
      var series := SortBy(shown, KeyFor(PublishedAt), false);
      Success(View(shown, metric, top, timeMetric, series))
  }
}

=== FILE: wrappers.dfy ===
/** The two ways the dashboard's Python code signals that it has nothing
    ordinary to return: a `None` (an absent response field, a helper that
    gives up) and a raised exception (an unparsable duration or publish
    time). */
module Wrappers {

  /** A response field or helper result that may be `None`. */
  datatype Option<+T> = None | Some(value: T) {

    /** `item.get(field, fallback)`: the field when the response has it,
        the fallback the code supplies otherwise. */
    function GetOr(fallback: T): T {
      match this
      case Some(v) => v
      case None => fallback
    }
  }

  /** The outcome of a step that may raise: its value, or the error that
      ends the computation. The three members below let `:-` pass an error
      on to the caller unchanged, as an uncaught exception would. */
  datatype Result<+T, +E> = Success(value: T) | Failure(error: E) {

    predicate IsFailure() {
      Failure?
    }

    function PropagateFailure<U>(): Result<U, E>
      requires Failure?
    {
      Failure(error)
    }

    function Extract(): T
      requires Success?
    {
      value
    }
  }
}

=== FILE: youtube_api.dfy ===
/** The request logic of the API client. Each call to the provider becomes a
    function parameter from the request to either a response or an
    `HttpError`; what the provider answers is not modelled, only what the
    client does with the answer. */
module YouTubeApi {
  import opened Wrappers
  import opened Provider
  import Tables

  /** The provider accepts at most this many ids in one statistics request. */
  const MaxIdsPerRequest: nat := 50

  // ---------------------------------------------------------------------------
  // Chunking

  /** `[ids[i:i+50] for i in range(0, len(ids), 50)]`: consecutive slices of
      50 ids, the last one shorter when the count is not a multiple of 50. */
  function Chunks(ids: seq<string>): seq<seq<string>>
    decreases |ids|
  {
    if |ids| == 0 then []
    else
      var k := Tables.Min(MaxIdsPerRequest, |ids|);
      [ids[..k]] + Chunks(ids[k..])
  }

  /** The chunks laid end to end. */
  function Flatten(cs: seq<seq<string>>): seq<string> {
    if |cs| == 0 then [] else cs[0] + Flatten(cs[1..])
  }

  /** The shape `Chunks` produces: every slice but the last is full, and the
      last holds 1 to 50 ids. */
  predicate WellChunked(cs: seq<seq<string>>) {
    forall i | 0 <= i < |cs| ::
      && 1 <= |cs[i]| <= MaxIdsPerRequest
      && (i < |cs| - 1 ==> |cs[i]| == MaxIdsPerRequest)
  }

  /** The chunks partition the ids: laid end to end they give back the
      input in order, none is empty, none is over 50, and only the last may
      be short. */
  lemma {:induction false} ChunksPartition(ids: seq<string>)
    ensures Flatten(Chunks(ids)) == ids
    ensures WellChunked(Chunks(ids))
    decreases |ids|
  {
    if |ids| > 0 {
      var k := Tables.Min(MaxIdsPerRequest, |ids|);
      ChunksPartition(ids[k..]);
      var cs := Chunks(ids);
      assert cs[1..] == Chunks(ids[k..]);
      assert ids == ids[..k] + ids[k..];
      if |ids| <= MaxIdsPerRequest {
        assert Chunks(ids[k..]) == [];
      } else {
        assert |Chunks(ids[k..])| > 0;
      }
      forall i | 0 <= i < |cs|
        ensures 1 <= |cs[i]| <= MaxIdsPerRequest && (i < |cs| - 1 ==> |cs[i]| == MaxIdsPerRequest)
      {
        if i > 0 {
          assert cs[i] == Chunks(ids[k..])[i - 1];
        }
      }
    }
  }

  /** There are ⌈n / 50⌉ chunks. */
  lemma {:induction false} ChunkCount(ids: seq<string>)
    ensures |Chunks(ids)| == (|ids| + MaxIdsPerRequest - 1) / MaxIdsPerRequest
    decreases |ids|
  {
    if |ids| > 0 {
      var k := Tables.Min(MaxIdsPerRequest, |ids|);
      ChunkCount(ids[k..]);
    }
  }

  /** The slicing is the only well-chunked partition of the ids. */
  lemma {:induction false} ChunksUnique(ids: seq<string>, cs: seq<seq<string>>)
    requires Flatten(cs) == ids && WellChunked(cs)
    ensures cs == Chunks(ids)
    decreases |ids|
  {
    if |cs| > 0 {
      var k := Tables.Min(MaxIdsPerRequest, |ids|);
      assert ids == cs[0] + Flatten(cs[1..]);
      assert WellChunked(cs[1..]) by {
        forall i | 0 <= i < |cs[1..]|
          ensures 1 <= |cs[1..][i]| <= MaxIdsPerRequest && (i < |cs[1..]| - 1 ==> |cs[1..][i]| == MaxIdsPerRequest)
        {
          assert cs[1..][i] == cs[i + 1];
        }
      }
      if |cs| == 1 {
        assert Flatten(cs[1..]) == [];
        assert |cs[0]| == |ids| == k;
      } else {
        assert |cs[0]| == MaxIdsPerRequest;
        assert |cs[1]| >= 1;
        assert Flatten(cs[1..]) == cs[1] + Flatten(cs[2..]);
        assert |ids| > MaxIdsPerRequest;
      }
      assert cs[0] == ids[..k];
      assert Flatten(cs[1..]) == ids[k..];
      ChunksUnique(ids[k..], cs[1..]);
      assert cs == [cs[0]] + cs[1..];
    } else {
      assert ids == [];
    }
  }

  /** 120 ids go out as 50, 50 and 20. */
  lemma ChunkExample(ids: seq<string>)
    requires |ids| == 120
    ensures |Chunks(ids)| == 3
    ensures |Chunks(ids)[0]| == 50 && |Chunks(ids)[1]| == 50 && |Chunks(ids)[2]| == 20
  {
    ChunkCount(ids);
    ChunksPartition(ids);
    var cs := Chunks(ids);
    assert |Flatten(cs)| == |cs[0]| + |cs[1]| + |cs[2]| by {
      assert Flatten(cs) == cs[0] + Flatten(cs[1..]);
      assert Flatten(cs[1..]) == cs[1] + Flatten(cs[2..]);
      assert Flatten(cs[2..]) == cs[2] + Flatten(cs[3..]);
      assert cs[3..] == [];
    }
  }

  // ---------------------------------------------------------------------------
  // Statistics requests

  /** Every request of the list is answered. */
  predicate AllAnswered(chunks: seq<seq<string>>, fetch: seq<string> -> Result<Envelope<StatsItem>, HttpError>) {
    forall i | 0 <= i < |chunks| :: fetch(chunks[i]).Success?
  }

  /** `response.get("items", [])` of each chunk's answer, concatenated in
      chunk order. Defined when every chunk was answered. */
  function Merged(chunks: seq<seq<string>>, fetch: seq<string> -> Result<Envelope<StatsItem>, HttpError>): seq<StatsItem>
    requires forall i | 0 <= i < |chunks| :: fetch(chunks[i]).Success?
  {
    if |chunks| == 0 then []
    else Merged(chunks[..|chunks| - 1], fetch) + fetch(chunks[|chunks| - 1]).value.Items()
  }

  /** `get_videos_statistics`: no id means no request and an empty listing;
      otherwise one request per chunk, in order, stopping at the first
      `HttpError`, which turns the whole answer into `None` with no partial
      result. `issued` lists the requests sent. */
  method GetVideosStatistics(ids: seq<string>, fetch: seq<string> -> Result<Envelope<StatsItem>, HttpError>)
    returns (r: Option<Envelope<StatsItem>>, issued: seq<seq<string>>)
    ensures ids == [] ==> r == Some(Envelope(Some([]))) && issued == []
    ensures r.Some? <==> AllAnswered(Chunks(ids), fetch)
    ensures r.Some? ==> issued == Chunks(ids) && r.value.items == Some(Merged(Chunks(ids), fetch))
    ensures r.None? ==>
      && 0 < |issued| <= |Chunks(ids)|
      && issued == Chunks(ids)[..|issued|]
      && fetch(issued[|issued| - 1]).Failure?
      && forall i | 0 <= i < |issued| - 1 :: fetch(issued[i]).Success?
  {
    if |ids| == 0 {
      return Some(Envelope(Some([]))), [];
    }
    var chunks := Chunks(ids);
    var all: seq<StatsItem> := [];
    issued := [];
    var i := 0;
    while i < |chunks|
      invariant 0 <= i <= |chunks|
      invariant issued == chunks[..i]
      invariant forall j | 0 <= j < i :: fetch(chunks[j]).Success?
      invariant all == Merged(chunks[..i], fetch)
    {
      issued := issued + [chunks[i]];
      var response := fetch(chunks[i]);
      if response.Failure? {
        assert issued == chunks[..i + 1];
        assert issued[|issued| - 1] == chunks[i];
        assert forall j | 0 <= j < |issued| - 1 :: issued[j] == chunks[j];
        assert !AllAnswered(Chunks(ids), fetch) by {
          assert fetch(Chunks(ids)[i]).Failure?;
        }
        return None, issued;
      }
      assert chunks[..i + 1][..i] == chunks[..i];
      all := all + response.value.Items();
      i := i + 1;
    }
    assert chunks[..i] == chunks;
    return Some(Envelope(Some(all))), issued;
  }

  /** `Merged` over a split of the chunks. */
  lemma {:induction false} MergedAppend(a: seq<seq<string>>, b: seq<seq<string>>, fetch: seq<string> -> Result<Envelope<StatsItem>, HttpError>)
    requires forall i | 0 <= i < |a + b| :: fetch((a + b)[i]).Success?
    ensures forall i | 0 <= i < |a| :: fetch(a[i]).Success?
    ensures forall i | 0 <= i < |b| :: fetch(b[i]).Success?
    ensures Merged(a + b, fetch) == Merged(a, fetch) + Merged(b, fetch)
    decreases |b|
  {
    assert forall i | 0 <= i < |a| :: (a + b)[i] == a[i];
    assert forall i | 0 <= i < |b| :: (a + b)[|a| + i] == b[i];
    if |b| > 0 {
      var b' := b[..|b| - 1];
      assert (a + b)[..|a + b| - 1] == a + b';
      MergedAppend(a, b', fetch);
    } else {
      assert a + b == a;
    }
  }

  /** Nothing is dropped in the merge: when each request answers with one
      item per id asked for, the merged listing has one item per input id. */
  lemma {:induction false} MergedLength(ids: seq<string>, fetch: seq<string> -> Result<Envelope<StatsItem>, HttpError>)
    requires forall c: seq<string> :: fetch(c).Success? && |fetch(c).value.Items()| == |c|
    ensures |Merged(Chunks(ids), fetch)| == |ids|
    decreases |ids|
  {
    if |ids| > 0 {
      var k := Tables.Min(MaxIdsPerRequest, |ids|);
      MergedLength(ids[k..], fetch);
      MergedAppend([ids[..k]], Chunks(ids[k..]), fetch);
      assert Merged([ids[..k]], fetch) == fetch(ids[..k]).value.Items() by {
        assert [ids[..k]][..0] == [];
      }
    }
  }

  // ---------------------------------------------------------------------------
  // Comments, search and channel requests

  /** The status with which the provider refuses comments on a video whose
      comments are disabled. */
  const CommentsDisabled: nat := 403

  /** `get_video_comments`: status 403 is read as "no comments", any other
      `HttpError` becomes `None`, and an answer is passed on as it is. */
  function GetVideoComments(videoId: string, maxResults: nat, fetch: (string, nat) -> Result<Envelope<CommentThread>, HttpError>): (r: Option<Envelope<CommentThread>>)
    ensures r.None? <==> fetch(videoId, maxResults).Failure? && fetch(videoId, maxResults).error.status != CommentsDisabled
    ensures fetch(videoId, maxResults).Success? ==> r == Some(fetch(videoId, maxResults).value)
    ensures fetch(videoId, maxResults).Failure? && r.Some? ==> r.value.Items() == []
  {
    match fetch(videoId, maxResults)
    case Success(response) => Some(response)
    case Failure(e) => if e.status == CommentsDisabled then Some(Envelope(Some([]))) else None
  }

  /** A request parameter value. */
  datatype Param = Text(text: string) | Number(number: nat)

  /** The parameters of the search for a channel's videos; `publishedAfter`
      is sent only when the caller gives a non-empty value. */
  function SearchParams(channelId: string, publishedAfter: Option<string>, maxResults: nat): (p: map<string, Param>)
    ensures "publishedAfter" in p <==> publishedAfter.Some? && publishedAfter.value != ""
    ensures "publishedAfter" in p ==> p["publishedAfter"] == Text(publishedAfter.value)
    ensures p.Keys - {"publishedAfter"} == {"part", "channelId", "maxResults", "order", "type"}
    ensures p["channelId"] == Text(channelId) && p["maxResults"] == Number(maxResults)
    ensures p["part"] == Text("snippet") && p["order"] == Text("date") && p["type"] == Text("video")
  {
    var base := map["part" := Text("snippet"), "channelId" := Text(channelId), "maxResults" := Number(maxResults),
                     "order" := Text("date"), "type" := Text("video")];
    if publishedAfter.Some? && publishedAfter.value != "" then base["publishedAfter" := Text(publishedAfter.value)]
    else base
  }

  /** `get_channel_videos`: the search answer, or `None` on an `HttpError`. */
  function GetChannelVideos(channelId: string, publishedAfter: Option<string>, maxResults: nat,
                            search: map<string, Param> -> Result<Envelope<SearchItem>, HttpError>): (r: Option<Envelope<SearchItem>>)
    ensures r.None? <==> search(SearchParams(channelId, publishedAfter, maxResults)).Failure?
    ensures r.Some? ==> r.value == search(SearchParams(channelId, publishedAfter, maxResults)).value
  {
    match search(SearchParams(channelId, publishedAfter, maxResults))
    case Success(response) => Some(response)
    case Failure(_) => None
  }

  /** `get_channel_info`: the channel listing, or `None` on an `HttpError`. */
  function GetChannelInfo(channelId: string, fetch: string -> Result<Envelope<ChannelInfo>, HttpError>): (r: Option<Envelope<ChannelInfo>>)
    ensures r.None? <==> fetch(channelId).Failure?
    ensures r.Some? ==> r.value == fetch(channelId).value
  {
    match fetch(channelId)
    case Success(response) => Some(response)
    case Failure(_) => None
  }
}
